=== FILE: README.md ===
# TripTask client: a Dafny model

This project models the sequential logic of the TripTask web client. TripTask is a Next.js front end for a delivery and errand service. Customers book tasks, riders accept them and move them along, and both sign in through a token-based API.

The model covers:

- the in-memory token store and its two-store loader;
- the session bootstrap, login and role guards;
- the four logout handlers;
- the booking-status lifecycle as the pages offer it, with list updates by id, the per-view status filters and the status badge;
- the sign-up and task-booking form checks;
- the small state machines: slide carousels, onboarding modals, the service-status overlay, the admin online toggle and the socket singleton.

Each handler is a pure function over immutable values:

- A network call is a `Fetched<B>`: either it threw, or it resolved with an `ok` flag and a parsed body.
- The router is a recorded `Nav`. `Push` and `Replace` are the Next.js router; `Assign` is a `window.location.href` assignment.
- Browser storage is a pair of string maps, `localStorage` and `sessionStorage`.
- The in-memory tokens are a pair of optional strings.

JavaScript truthiness of an optional string is `Common.Truthy`: present and non-empty.

Modules follow the source:

- `Common`, `Seqs`
- `TokenStore`, `Api`, `UserContext`, `Socket`
- `Booking`
- `RiderPages`, `CustomerPages`, `TaskBooking`
- `Register`, `Login`, `Routing`
- `Dashboard`, `Slides`, `Admin`, `Overlay`, `Logout`, `Help`

## Model

| member | source | states |
|---|---|---|
| Seqs.Filter | src/app/customer/bookstatus/page.tsx:59-61 | `Array.prototype.filter`: the result holds exactly the elements satisfying the predicate, never more than the input |
| Seqs.FilterAppend | src/app/customer/bookstatus/page.tsx:59-61 | filtering distributes over concatenation, so the relative order of kept elements is preserved |
| Seqs.FilterPartition | src/app/customer/book-history/page.tsx:69 | filtering by a predicate and by its negation splits the list: the two lengths add up to the whole |
| Seqs.FilterFilter | src/app/customer/chat/page.tsx:28 | filtering twice is filtering once by the conjunction |
| Seqs.FilterKeepsAll | src/app/customer/book-history/page.tsx:69 | a filter whose predicate holds for every element returns the list unchanged |
| TokenStore.SetTokens | src/lib/tokenStore.ts:11-13 | after storing, the access getter returns exactly the given string, unfiltered, and the refresh getter the given refresh value, or null when it is null or undefined |
| TokenStore.ClearTokens | src/lib/tokenStore.ts:38-41 | both getters return null afterwards |
| TokenStore.ClearTokensIdempotent | src/lib/tokenStore.ts:38-41 | clearing twice is clearing once |
| TokenStore.LoadTokensFromStorage | src/lib/tokenStore.ts:49-73 | a non-empty localStorage token wins and sessionStorage is not read; otherwise both values come from sessionStorage; no non-empty token anywhere, or a throwing storage, leaves memory empty; a loaded access token is never empty |
| TokenStore.LoadTakesOneStore | src/lib/tokenStore.ts:51-57 | access and refresh token always come from the same store, the first one holding a non-empty token |
| TokenStore.LoadIsIdempotent | src/lib/tokenStore.ts:49-73 | loading only reads storage: the result does not depend on the previous memory, so loading twice equals loading once |
| Api.GetCurrentUser | src/lib/api.ts:4-21 | the result is the body's `user` when present, otherwise null, including when the request or parse throws |
| Api.GetCurrentUserIgnoresStatus | src/lib/api.ts:6-16 | the HTTP status is never inspected: an error response with a user yields that user |
| Api.ProbesFrom | src/lib/api.ts:43-56 | reference definition of the probe loop: it stops at the first probe that is ok and carries a user, or at one that throws; earlier probes all resolved without a session |
| Api.LoginUser | src/lib/api.ts:28-57 | a non-ok login fails with the server message or `Login failed` and makes no probe; otherwise it agrees with the reference loop; at most three probes, each after 300 ms; three probes without a session fail with the session message |
| UserContext.Accept | src/context/UserContext.tsx:56-62 | a user is accepted iff `id`, `email` and `role` are all non-empty, and only those four fields, with `name`, are kept |
| UserContext.AcceptIgnoresRoleValue | src/context/UserContext.tsx:56 | any non-empty role string passes, whatever its value |
| UserContext.Logout | src/context/UserContext.tsx:36-39 | tokens cleared and user null |
| UserContext.Init | src/context/UserContext.tsx:41-75 | no access token after loading means no server call and a null user; a user is set iff the server was asked and the answer is accepted; a rejected user clears the tokens; loading ends false on every path |
| UserContext.Render | src/context/UserContext.tsx:80-89 | children render exactly when loading is over |
| UserContext.ChildrenOnlyAfterInit | src/context/UserContext.tsx:73-89 | the provider mounts on the loading screen and always shows its children after init |
| Socket.ConnectSocket | src/lib/socket.ts:7-32 | a connected socket is reused unchanged; otherwise a new one is created with the access token read at that moment; afterwards the singleton holds the returned socket |
| Socket.TransportConnected | src/lib/socket.ts:18-20 | the transport's own connect event marks the current socket connected and changes nothing else |
| Socket.DisconnectSocket | src/lib/socket.ts:38-44 | afterwards the singleton is null; on a null singleton it does nothing |
| Socket.ReusedSocketKeepsOldToken | src/lib/socket.ts:8-16 | a reused socket keeps the token it was created with, whatever the store now holds |
| Socket.ConnectTwice | src/lib/socket.ts:7-36 | connecting again after a connection is established returns the same socket |
| Booking.TextParse | src/app/rider/active-bookings/page.tsx:17 | reading a status string and writing it back gives the same string |
| Booking.ParseText | src/app/rider/active-bookings/page.tsx:17 | writing a status and reading it back gives the same status |
| Booking.TextDecidesKnownStatus | src/app/rider/active-bookings/page.tsx:167 | two task statuses are equal as strings exactly when they are equal as statuses |
| Booking.RiderOffers | src/app/rider/active-bookings/page.tsx:167-198 | `accepted` offers on-the-way and cancelled, `on_the_way` offers completed and cancelled, every other status nothing; each offer is a lifecycle step forward |
| Booking.RiderOffersMatchLifecycle | src/app/rider/active-bookings/page.tsx:167-198 | the rider buttons and the customer's accept-or-cancel of a pending task together are exactly the lifecycle's steps |
| Booking.OfferedPathRises | src/app/rider/active-bookings/page.tsx:167-198 | following offered buttons strictly advances the lifecycle |
| Booking.OfferedPathNeverRepeats | src/app/rider/active-bookings/page.tsx:167-198 | a status never comes back, and a chain of offered updates has at most three statuses |
| Booking.RemoveById | src/app/rider/available/page.tsx:90 | exactly the tasks with a different id remain |
| Booking.RemoveByIdCounts | src/app/rider/available/page.tsx:90 | removed plus kept is the whole list; an absent id changes nothing |
| Booking.SetStatusById | src/app/rider/active-bookings/page.tsx:94-98 | length, order and ids preserved; only matching tasks change, and only their status |
| Booking.SetStatusByIdIdempotent | src/app/rider/active-bookings/page.tsx:94-98 | applying the same status update twice equals once |
| Booking.ReplaceById | src/app/customer/bookstatus/page.tsx:109 | each task whose id matches the returned task is replaced by it; the others and the length are kept |
| Booking.TabStatus | src/app/rider/history/page.tsx:27 | both history tabs name a terminal status |
| Booking.HistoryView | src/app/rider/history/page.tsx:69 | shown tasks are exactly those whose status equals the tab, all terminal |
| Booking.HistoryTabsDisjoint | src/app/customer/book-history/page.tsx:32-69 | no task appears under both tabs, and together they show at most the whole list |
| Booking.FilterEquivalent | src/app/customer/book-history/page.tsx:69 | filters by pointwise equal predicates agree |
| Booking.ToggleDetails | src/app/rider/active-bookings/page.tsx:65-75 | exactly the one id's membership flips |
| Booking.ToggleDetailsTwice | src/app/rider/history/page.tsx:57-67 | toggling twice restores the set |
| RiderPages.RiderGuard | src/app/rider/history/page.tsx:30-34 | replace with `/login` exactly when loading is over and the user is missing or not a rider |
| RiderPages.RiderRender | src/app/rider/history/page.tsx:71-72 | the page renders only for a loaded rider; the loading view only while loading |
| RiderPages.GuardAgreesWithRender | src/app/rider/dashboard/page.tsx:17-42 | the guard redirects exactly when the page renders nothing |
| RiderPages.ActiveFetch | src/app/rider/active-bookings/page.tsx:36-55 | an ok response sets the list to `data.tasks` or empty; a non-ok one or an exception keeps it; loading ends |
| RiderPages.UpdateStatus | src/app/rider/active-bookings/page.tsx:77-102 | only the three rider targets can be sent; on an ok response only the matching tasks' status changes, to the status the server returned; a non-ok response or an exception keeps the list |
| RiderPages.CardButtonsAreValidUpdates | src/app/rider/active-bookings/page.tsx:167-198 | every button on a card sends a permitted target that is a lifecycle step |
| RiderPages.AvailableFetch | src/app/rider/available/page.tsx:34-55 | without a token no request and a replace to `/login`; otherwise the list is `data.tasks` or empty whatever the status |
| RiderPages.ActiveAndAvailableFetchDiffer | src/app/rider/active-bookings/page.tsx:44-49 | with a token, both loaders agree on an ok response; on a non-ok one active bookings keeps the list while available bookings takes `data.tasks` or empty |
| RiderPages.AcceptTask | src/app/rider/available/page.tsx:74-95 | without a token no request; otherwise `accepted` is sent, success removes the task, failure keeps the list and alerts |
| RiderPages.AcceptTwiceIsAcceptOnce | src/app/rider/available/page.tsx:90 | a second successful accept of the same id changes nothing further |
| RiderPages.HistoryFetch | src/app/rider/history/page.tsx:36-50 | `tasks` becomes a list body, empty for a falsy body, and a non-list body is stored as it is; an exception keeps it |
| RiderPages.HistoryRender | src/app/rider/history/page.tsx:69-72 | a stored non-list makes the render throw, whatever the gates; otherwise the rider gates decide and exactly the tab's tasks are listed |
| RiderPages.HistoryIgnoresStatus | src/app/rider/history/page.tsx:42-43 | the status is never checked: an error response is stored like a success, and an error response whose body is a list is shown like one |
| RiderPages.ErrorObjectBreaksHistory | src/app/rider/history/page.tsx:42-69 | an error response with an object body is stored and breaks the next render, even while loading |
| CustomerPages.ActiveTasks | src/app/customer/bookstatus/page.tsx:59-61 | exactly the pending, accepted and on-the-way tasks, none terminal |
| CustomerPages.ChatTasks | src/app/customer/chat/page.tsx:28 | exactly the accepted and on-the-way tasks |
| CustomerPages.ChatIsActiveWithoutPending | src/app/customer/chat/page.tsx:28 | the chat list is the active list without pending tasks, in the same order |
| CustomerPages.ActiveAndHistoryDisjoint | src/app/customer/book-history/page.tsx:69 | no task is both active and in a history tab |
| CustomerPages.BookStatusLoad | src/app/customer/bookstatus/page.tsx:36-72 | no localStorage token: push `/login` and keep loading; a non-ok `/auth/me` pushes `/login` before any task request; an ok one sets the user, and an array body replaces the list by its active tasks while anything else keeps it; a thrown `/auth/me` only ends loading |
| CustomerPages.CancelTask | src/app/customer/bookstatus/page.tsx:74-91 | a successful delete removes the task; anything else keeps the list and alerts |
| CustomerPages.UpdateTask | src/app/customer/bookstatus/page.tsx:93-115 | nothing happens without a token or a selection; success replaces by id and clears the selection; a non-ok response or a throw alerts and keeps both |
| CustomerPages.StatusBadge | src/app/customer/bookstatus/page.tsx:117-127 | the class always starts with the base; it is the grey class exactly for unknown statuses |
| CustomerPages.BadgeSeparatesKnownStatuses | src/app/customer/bookstatus/page.tsx:119-125 | the five known statuses get five different classes |
| CustomerPages.CardActionFor | src/app/customer/bookstatus/page.tsx:180-194 | cancel is offered exactly for pending tasks; the others get the chat action |
| CustomerPages.Editable | src/app/customer/bookstatus/page.tsx:225 | fields are editable exactly when cancel would be offered |
| CustomerPages.DisplayStatus | src/app/customer/bookstatus/page.tsx:165 | every underscore becomes a space and nothing else changes |
| CustomerPages.DisplayStatusClean | src/app/customer/bookstatus/page.tsx:165-223 | no underscore remains and a second pass changes nothing |
| CustomerPages.DisplayOnTheWay | src/app/customer/bookstatus/page.tsx:165 | `on_the_way` reads `on the way` |
| CustomerPages.ChatRoute | src/app/customer/chat/page.tsx:53 | the route is `/customer/chat/` followed by exactly the id |
| CustomerPages.ChatCheckUser | src/app/customer/chat/page.tsx:17-22 | an ok `/auth/me` sets the user; anything else pushes `/login`; the task list is untouched |
| CustomerPages.ChatLoadTasks | src/app/customer/chat/page.tsx:24-30 | a resolved list, whatever its status, is filtered to the chat statuses; user and route untouched |
| CustomerPages.ChatEffectsCommute | src/app/customer/chat/page.tsx:17-30 | the two independent effects give the same state in either order |
| CustomerPages.HistoryLoad | src/app/customer/book-history/page.tsx:34-67 | no token assigns `/login` before any request; a non-ok `/auth/me` assigns `/login` and requests no tasks; an ok one sets the user and requests the tasks, and the list becomes an ok response's body and is otherwise kept; loading ends |
| CustomerPages.HistoryFailedListIsEmpty | src/app/customer/book-history/page.tsx:56-61 | a failed task request leaves the list, and so both tabs, empty |
| TaskBooking.OptionalFields | src/app/customer/task/page.tsx:62-64 | notes never matter; the date-time matters only for a custom schedule |
| TaskBooking.FetchUser | src/app/customer/task/page.tsx:36-58 | a non-ok `/auth/me` assigns `/login`; a non-customer assigns `/not-authorized`; a customer is set and loading ends, and only then |
| TaskBooking.HandleSubmit | src/app/customer/task/page.tsx:60-70 | a valid form only opens the modal; an invalid one shows the required-fields error |
| TaskBooking.BookingPayload | src/app/customer/task/page.tsx:80-84 | the form fields are copied, the date-time is `ASAP` for the ASAP option and the form value otherwise, and the status is `pending` |
| TaskBooking.ConfirmBooking | src/app/customer/task/page.tsx:72-101 | the modal closes; success toasts, resets the form to empty with schedule ASAP and pushes book status; a non-ok response shows the server message or the default and a throw the generic failure toast, both keeping the form |
| TaskBooking.SubmittedPayloadIsComplete | src/app/customer/task/page.tsx:64-84 | a payload sent after a valid submit has all required fields and a date-time |
| Register.ValidateName | src/app/register/page.tsx:24-41 | the empty name is valid; a non-empty name is valid iff every character is a letter or a space; an invalid name with a digit gets the numbers message, any other the symbols message |
| Register.HandleNameChange | src/app/register/page.tsx:43-48 | the name takes the typed value only when it is valid; the error always reflects it |
| Register.NameInvariantHolds | src/app/register/page.tsx:43-48 | the name field holds a valid name on mount and after every keystroke |
| Register.RoleHome | src/app/register/page.tsx:104-110 | customer to the customer dashboard, rider to the rider dashboard, anything else to `/` |
| Register.HandleRegister | src/app/register/page.tsx:50-117 | missing field, invalid name, mismatched passwords are checked in that order and stop before any request; a failed registration shows its message; a successful login with a token writes it to localStorage, and routes by role when it decodes; a login without a token pushes `/login` with the manual-login message; a throw shows the generic message; loading ends |
| Register.InvalidNameUnreachable | src/app/register/page.tsx:58-61 | with only typed input, the invalid-name message never appears |
| Register.TokenOnlyAfterLogin | src/app/register/page.tsx:80-101 | a failed registration writes nothing and does not navigate |
| Login.FromApi | src/lib/api.ts:38-56 | every failure of `loginUser` is an `Error` carrying its message |
| Login.Destination | src/app/login/page.tsx:39-42 | rider goes to the rider dashboard, every other role to the customer dashboard |
| Login.HandleLogin | src/app/login/page.tsx:14-64 | empty fields never call login; a falsy user shows the failure message; an ok check shows the success message and navigates by role; a non-ok check shows the session message and stays; thrown errors are prefixed; loading ends |
| Login.Submit | src/app/login/page.tsx:25-53 | composed with `loginUser`, the page never sees a missing user, and a rider redirect comes from a probe that returned a rider |
| Routing.HomeRedirect | src/app/page.tsx:10-30 | exactly one replace: rider and customer to their dashboards, a missing user or any other role to `/login` |
| Routing.RoleRoutingAgrees | src/app/page.tsx:15-22 | root page, login and sign-up agree for riders and customers, and differ for every other role |
| Routing.NavbarUser | src/components/Navbar.tsx:17-31 | a rider or customer is kept as id, email and role; any other role or no user gives null |
| Routing.NavbarIgnoresName | src/components/Navbar.tsx:23-27 | the displayed user does not depend on `name` |
| Routing.NavbarLogout | src/components/Navbar.tsx:34-37 | logout clears memory, then pushes `/login` |
| Routing.GuardEffect | src/components/ProtectedRoute.tsx:11-16 | replace with `/login` exactly when loading is over and there is no user |
| Routing.GuardRender | src/components/ProtectedRoute.tsx:18-26 | children render exactly when loading is over and a user exists |
| Routing.GuardIsConsistent | src/components/ProtectedRoute.tsx:11-26 | no redirect while loading; a redirect never shows children; any role passes |
| Routing.GuardAfterInit | src/context/UserContext.tsx:72-75 | after the bootstrap the gate either shows the children or redirects |
| Dashboard.FetchUser | src/app/customer/dashboard/page.tsx:29-80 | no token pushes `/login` with no request; failures push `/login`; a non-customer pushes `/not-authorized` without setting the user; a customer is set, loading ends, and the terms open iff unseen, otherwise the tutorial iff unseen |
| Dashboard.AgreeToTerms | src/app/customer/dashboard/page.tsx:85-95 | records `seenTerms`, hides the terms, and opens the tutorial iff it is unseen; no other key changes |
| Dashboard.CloseTutorial | src/app/customer/dashboard/page.tsx:164-168 | records `seenTutorial` and hides it; no other key changes |
| Dashboard.OnboardingInvariant | src/app/customer/dashboard/page.tsx:66-95 | the two modals are never open together; with both flags set neither appears |
| Dashboard.OnboardingCompletes | src/app/customer/dashboard/page.tsx:85-168 | agreeing and closing records both flags, so the next visit opens no modal |
| Dashboard.TopBarName | src/app/customer/dashboard/page.tsx:131 | the top bar shows the name, or `Customer` when it is missing or empty |
| Slides.GoNext | src/app/customer/help/how-to-use/page.tsx:56-58 | advances only below the last slide and keeps the index in range |
| Slides.GoBack | src/app/customer/help/how-to-use/page.tsx:60-62 | steps back only above the first slide and keeps the index in range |
| Slides.HowToUseTouchEnd | src/app/customer/help/how-to-use/page.tsx:64-73 | start minus end above 50 advances, below -50 goes back, otherwise nothing |
| Slides.TutorialTouchStart | src/app/customer/dashboard/TutorialModal.tsx:42-44 | records the start and leaves the slide |
| Slides.TutorialTouchEnd | src/app/customer/dashboard/TutorialModal.tsx:46-52 | with no start nothing happens; end minus start above 50 goes back, below -50 advances; the start is forgotten |
| Slides.SwipeDirectionsAgree | src/app/customer/dashboard/TutorialModal.tsx:46-52 | despite the opposite sign conventions, one gesture moves both carousels the same way |
| Slides.RunStaysInRange | src/app/customer/dashboard/TutorialModal.tsx:7-40 | no sequence of buttons and swipes leaves the nine slides |
| Slides.Wheel | src/app/customer/dashboard/TutorialModal.tsx:54-57 | zoom follows the wheel inside [1, 3] and is clamped at either end |
| Slides.WheelAll | src/app/customer/dashboard/TutorialModal.tsx:54-57 | any run of wheel events keeps zoom within [1, 3] |
| Slides.ResetZoom | src/app/customer/dashboard/TutorialModal.tsx:59 | zoom becomes 1 |
| Slides.ClosePreview | src/app/customer/dashboard/TutorialModal.tsx:135-138 | the preview closes at zoom 1 |
| Admin.FetchStatus | src/app/rider/admin/page.tsx:22-43 | no token replaces with `/login` and makes no request; an ok response sets the flag; failures are only logged |
| Admin.Negated | src/app/rider/admin/page.tsx:51 | the sent flag is the negation of the current one, and true while it is unknown |
| Admin.ToggleStatus | src/app/rider/admin/page.tsx:45-70 | no token: no request and a replace; otherwise the negation is committed only on an ok response, failure alerts and keeps the flag, saving ends false |
| Admin.ToggleTwiceRestores | src/app/rider/admin/page.tsx:45-70 | two successful toggles restore a known flag |
| Admin.Render | src/app/rider/admin/page.tsx:72-74 | the panel shows only once loading is over and the flag is known |
| Admin.FailedReadKeepsLoading | src/app/rider/admin/page.tsx:34-74 | a failed first read keeps the panel loading |
| Overlay.OnUpdate | src/app/customer/layout.tsx:25-32 | a status update records the status, shows the overlay and, when online, adds a hide timer |
| Overlay.OnFire | src/app/customer/layout.tsx:30 | a pending timer hides the overlay whatever the status |
| Overlay.OnRetry | src/app/customer/layout.tsx:43-45 | retry shows the overlay and keeps the status |
| Overlay.StaleTimerHidesOffline | src/app/customer/layout.tsx:29-31 | an online update followed by an offline one lets the first timer hide the offline notice |
| Overlay.OnUpdateCancelling | src/app/customer/layout.tsx:25-32 | corrected update: earlier hide timers are cancelled |
| Overlay.CancellingKeepsOfflineShown | src/app/customer/layout.tsx:25-45 | with cancellation, an offline status is always on screen, under any sequence of events |
| Overlay.CancellingFromMount | src/app/customer/layout.tsx:12-13 | from mount, the corrected overlay never hides an offline status |
| Overlay.Render | src/app/customer/layout.tsx:55-85 | checking for an unknown status, online, or offline with Retry and Back to Login; nothing when hidden |
| Overlay.Press | src/app/customer/layout.tsx:43-49 | retry re-shows without navigating; back to login pushes `/login`; the status is unchanged |
| Logout.BackToLogin | src/app/not-authorized/page.tsx:9-14 | removes exactly the two token keys from localStorage; sessionStorage and memory untouched; pushes `/login` |
| Logout.SessionSurvivesBackToLogin | src/app/not-authorized/page.tsx:10-13 | a later load still picks up a session-stored pair |
| Logout.RiderDashboardEffect | src/app/rider/dashboard/page.tsx:14-20 | every run reloads the tokens from storage and applies the rider guard |
| Logout.RiderDashboardLogout | src/app/rider/dashboard/page.tsx:22-39 | no token: push only, with memory and storage untouched; with a token: request, then clear memory, leave storage as `logoutUser` leaves it, and push whatever the request did |
| Logout.TopbarLogout | src/app/rider/Topbar.tsx:11-30 | requests only with a token; unless the request throws (also with no token) clears memory, leaves storage as `logoutUser` leaves it, and pushes; a throw changes nothing; the status is never read |
| Logout.SideMenuLogout | src/app/customer/dashboard/SideMenu.tsx:39-53 | always requests; pushes `/login` only on ok; never clears |
| Logout.LogoutsDiffer | src/app/rider/dashboard/page.tsx:22-39 | on a throw only the dashboard still leaves; with no token only the top bar clears and the side menu still asks the server |
| Logout.KeyDown | src/app/customer/dashboard/SideMenu.tsx:26-32 | Escape closes the menu; any other key does nothing |
| Logout.GoTo | src/app/customer/dashboard/SideMenu.tsx:34-37 | navigate first, then close |
| Logout.TopbarName | src/app/rider/Topbar.tsx:59 | name, else email, else `Rider`; never empty |
| Help.ValidateToken | src/app/customer/help/page.tsx:20-45 | no localStorage token pushes `/login` without a request; failure pushes `/login` and leaves the token invalid; success sets the name, or `User`, and validates |
| Help.HelpRendersOnlyWhenValid | src/app/customer/help/page.tsx:53-55 | from mount, the page renders exactly when a stored token meets an ok `/auth/me`, and then it never navigates |
| Help.VerifyUser | src/app/customer/help/add-to-home/page.tsx:19-46 | no token pushes `/login` and loading never ends; failures push `/login`; a decoded role other than customer pushes `/not-authorized`; the request path ends loading |
| Help.TripCheckAuth | src/app/customer/trip/page.tsx:16-51 | no token replaces with `/login` and keeps loading; only an ok response with a customer role stays; every other case, a wrong role included, replaces with `/login`; the request path ends loading and fades in |
| Help.AddToHomeAndTripAgree | src/app/customer/trip/page.tsx:33-39 | both pages admit exactly the same responses |
| Help.HowToUseCheckAsWritten | src/app/customer/help/how-to-use/page.tsx:33-54 | the page stays exactly when the top-level `role` is customer; any failure pushes `/login`; loading ends on every path |
| Help.HowToUseCheck | src/app/customer/help/how-to-use/page.tsx:33-54 | corrected: the page stays exactly when `user.role` is customer |
| Help.HowToUseRejectsEveryCustomer | src/app/customer/help/how-to-use/page.tsx:43-46 | as written, a signed-in customer is sent to `/not-authorized`; the corrected check admits them |
| Help.HowToUseAsWrittenNeverAdmits | src/app/customer/help/how-to-use/page.tsx:43-46 | as written, no `/auth/me` answer keeps the user on the page |

## Left out

- Rendering, Tailwind classes and animations, apart from the status-badge classes and the render gates above.
- Real HTTP, the Next.js router and `window.location` are abstract responses and a recorded route. `res.json()` failing is folded into `Threw`.
- `setTimeout` delays: only the effect is kept. The 300 ms probe wait is counted, the login and sign-up redirects and the 400 ms loading timers happen at once, and the overlay's 2 s timer is an explicit `Fire` event.
- JWT decoding with `atob` and `JSON.parse` is an abstract `Decoded` value.
- `parseInt` in the navigation bar is an abstract function parameter.
- Socket.io internals: `connected` is set by an explicit transport event.
- `formatDate`, the TermsModal scroll geometry, TawkLoader and configuration are presentational or third-party.
- `logoutUser`, `getAccessToken` and `loadTokensFromStorage` are imported from `src/lib/api.ts`, which does not define them. The two token functions are taken from `src/lib/tokenStore.ts`. `logoutUser` is modelled as clearing the in-memory tokens; the browser storage it leaves behind is a parameter of the rider logouts, since its effect on storage is unknown.
- Refresh-on-401, token expiry, mutual exclusion between the two stores, and rejection of the strings "undefined" and "null" do not appear in the code, so they are not modelled.
  - `setTokens` stores whatever it receives.
  - Realtime status merging and chat messages are not part of this model.
- The customer pages type task ids as numbers while the rider pages use strings. Ids are strings throughout here, since only equality is used.
- Slides.Wheel: exact reals stand in for the source's floating-point `z - deltaY * 0.001`.
- Register.ValidateName: the Unicode class `\p{L}` is an abstract `isLetter` predicate. The model assumes only that no ASCII digit is a letter.
- Login.HandleLogin: a thrown session check (`fetch` rejecting) is treated as an `Error` whose message is shown, as `TypeError` is.
- TaskBooking.FetchUser: a rejected `/auth/me` and a body without `user` throw outside any catch and are modelled as changing nothing.
- RiderPages.UpdateStatus: an ok response without `task` is not modelled: the model takes every ok body to carry a status. In the page that case makes the `setTasks` updater throw while rendering, outside the handler's `catch`, for any task with the id; React's render-error behaviour is outside this model.
- RiderPages.HistoryRender: a render that throws is the end of what is modelled; React's error handling after it is not part of this model.
- Booking.Task: a task's status is a `KnownStatus`: a status string that spells one of the five known statuses is held as that status, as `Parse` reads it, so the pages' string comparisons and the model's status comparisons agree.
- CustomerPages.StatusBadge: status strings naming `Object.prototype` members (such as `constructor`) would index the class map oddly; every unknown string is modelled as grey.

## Findings

| source | as written | input that shows it | evidently intended | confidence | as-written member | corrected member |
|---|---|---|---|---|---|---|
| src/app/customer/layout.tsx:29-31 | an online update schedules a hide timer that is never cancelled | `serviceStatusUpdate(true)`, then `serviceStatusUpdate(false)` within 2 s, then the timer fires: the status is offline and the overlay is hidden | an offline status keeps the overlay, with Retry and Back to Login, on screen | medium, not executed | Overlay.StaleTimerHidesOffline | Overlay.CancellingKeepsOfflineShown |
| src/app/customer/help/how-to-use/page.tsx:43 | the role check reads the top-level `data.role` of `/auth/me` | an ok `/auth/me` answering `{ user: { role: "customer", … } }`, which has no top-level `role`: the customer is pushed to `/not-authorized` | check `data.user.role`, as every other reader of `/auth/me` does | high, not executed | Help.HowToUseRejectsEveryCustomer | Help.HowToUseCheck |

=== FILE: admin.dfy ===
/** The rider admin panel (`src/app/rider/admin/page.tsx`): it reads and
    flips the service's online flag. Its role guard is
    `RiderPages.RiderGuard`. */
module Admin {
  import opened Common
  import TokenStore

  /** `isOnline` is `null` until the first successful read. */
  datatype Panel = Panel(isOnline: Option<bool>, saving: bool, nav: Nav, alerted: bool)

  const Start := Panel(None, false, Stay, false)

  datatype StatusBody = StatusBody(isOnline: bool)

  /** `fetchStatus`: without a token, replace with `/login` and make no
      request; a failed read is only logged. */
  function FetchStatus(p: Panel, m: TokenStore.Tokens, res: Fetched<StatusBody>): (r: Panel)
    ensures !Truthy(TokenStore.GetAccessToken(m)) ==> r == p.(nav := Replace(LoginPath))
    ensures Truthy(TokenStore.GetAccessToken(m)) && res.Resolved? && res.ok ==>
      r == p.(isOnline := Some(res.body.isOnline))
    ensures Truthy(TokenStore.GetAccessToken(m)) && !(res.Resolved? && res.ok) ==> r == p
  {
    if !Truthy(TokenStore.GetAccessToken(m)) then p.(nav := Replace(LoginPath))
    else if res.Resolved? && res.ok then p.(isOnline := Some(res.body.isOnline))
    else p
  }

  /** `!isOnline` on a nullable flag: `!null` is `true`. */
  function Negated(b: Option<bool>): (r: bool)
    ensures b.Some? ==> r == !b.value
    ensures b.None? ==> r
  {
    !(b.Some? && b.value)
  }

  /** `toggleStatus`: returns the new panel and the flag it sent, if any. The
      negation is committed only on an ok response; `saving` is false on
      every path that makes the request. */
  function ToggleStatus(p: Panel, m: TokenStore.Tokens, res: Fetched<()>): (r: (Panel, Option<bool>))
    ensures !Truthy(TokenStore.GetAccessToken(m)) ==> r == (p.(nav := Replace(LoginPath)), None)
    ensures Truthy(TokenStore.GetAccessToken(m)) ==> r.1 == Some(Negated(p.isOnline)) && !r.0.saving
    ensures Truthy(TokenStore.GetAccessToken(m)) && res.Resolved? && res.ok ==> r.0.isOnline == r.1
    ensures Truthy(TokenStore.GetAccessToken(m)) && !(res.Resolved? && res.ok) ==>
      r.0.isOnline == p.isOnline && r.0.alerted
    ensures r.0.nav != p.nav ==> !Truthy(TokenStore.GetAccessToken(m))
  {
    if !Truthy(TokenStore.GetAccessToken(m)) then (p.(nav := Replace(LoginPath)), None)
    else
      var sent := Negated(p.isOnline);
      if res.Resolved? && res.ok then (p.(isOnline := Some(sent), saving := false), Some(sent))
      else (p.(alerted := true, saving := false), Some(sent))
  }

  /** Two successful toggles restore a known flag. */
  lemma ToggleTwiceRestores(p: Panel, m: TokenStore.Tokens)
    requires Truthy(TokenStore.GetAccessToken(m)) && p.isOnline.Some?
    ensures var once := ToggleStatus(p, m, Resolved(true, ())).0;
      ToggleStatus(once, m, Resolved(true, ())).0.isOnline == p.isOnline
  {
  }

  datatype Screen = LoadingPanel | StatusPanel(online: bool)

  /** The panel renders only once the user context is loaded and the flag
      has been read; a failed first read keeps it loading. */
  function Render(loading: bool, p: Panel): (s: Screen)
    ensures s.StatusPanel? <==> !loading && p.isOnline.Some?
    ensures s.StatusPanel? ==> s.online == p.isOnline.value
  {
    if loading || p.isOnline.None? then LoadingPanel else StatusPanel(p.isOnline.value)
  }

  lemma FailedReadKeepsLoading(m: TokenStore.Tokens, res: Fetched<StatusBody>, loading: bool)
    requires !(res.Resolved? && res.ok)
    ensures Render(loading, FetchStatus(Start, m, res)) == LoadingPanel
  {
  }
}

=== FILE: api.dfy ===
/** `src/lib/api.ts`: the current-user probe and the login flow with its
    bounded session check. */
module Api {
  import opened Common

  /** `getCurrentUser()`: `data.user || null` of the parsed `/auth/me` body;
      any exception gives null. The HTTP status is never looked at. */
  function GetCurrentUser(me: Fetched<MeBody>): (u: Option<RawUser>)
    ensures u.Some? ==> me.Resolved? && me.body.user == u
    ensures me.Resolved? && me.body.user.Some? ==> u.Some?
  {
    if me.Threw? then None else me.body.user
  }

  /** Whatever the status, the same body gives the same user. */
  lemma GetCurrentUserIgnoresStatus(body: MeBody)
    ensures GetCurrentUser(Resolved(true, body)) == GetCurrentUser(Resolved(false, body))
    ensures GetCurrentUser(Resolved(false, body)) == body.user
  {
  }

  /** The body of `POST /auth/login` as far as the flow reads it. */
  datatype LoginBody = LoginBody(message: Option<string>)

  /** `loginUser` resolves with a user or rejects with an `Error` whose
      message is given. */
  datatype LoginResult = LoggedIn(user: RawUser) | Failed(message: string)

  const MaxProbes := 3
  const ProbeDelayMs := 300
  const DefaultLoginError := "Login failed"
  const SessionNotEstablished := "Login succeeded, but session not established."

  /** A probe that ends the loop with a user: `meRes.ok && meData.user`. */
  predicate Established(p: Fetched<MeBody>) {
    p.Resolved? && p.ok && p.body.user.Some?
  }

  /** Reference definition of the probe loop from probe `i` on: the result and
      how many probes were made in all. `probe(i)` is the outcome the server
      gives to the i-th `/auth/me` request. */
  function ProbesFrom(probe: nat -> Fetched<MeBody>, i: nat): (r: (LoginResult, nat))
    requires i <= MaxProbes
    ensures i <= r.1 <= MaxProbes
    ensures r.0.LoggedIn? ==>
      i < r.1 && Established(probe(r.1 - 1)) && r.0.user == probe(r.1 - 1).body.user.value
    ensures forall j :: i <= j < r.1 - 1 ==> probe(j).Resolved? && !Established(probe(j))
    ensures r.1 < MaxProbes ==> r.1 > i && (Established(probe(r.1 - 1)) || probe(r.1 - 1).Threw?)
    decreases MaxProbes - i
  {
    if i == MaxProbes then (Failed(SessionNotEstablished), i)
    else match probe(i)
      case Threw(msg) => (Failed(msg), i + 1)
      case Resolved(ok, body) =>
        if ok && body.user.Some? then (LoggedIn(body.user.value), i + 1)
        else ProbesFrom(probe, i + 1)
  }

  /** `loginUser(email, password)`. Returns the outcome, the number of
      `/auth/me` probes made and the total time waited before them. It takes
      no token store and no browser storage, so it writes neither. */
  method LoginUser(login: Fetched<LoginBody>, probe: nat -> Fetched<MeBody>)
    returns (r: LoginResult, made: nat, waitedMs: nat)
    ensures login.Threw? ==> r == Failed(login.message) && made == 0
    ensures login.Resolved? && !login.ok ==>
      r == Failed(OrElse(login.body.message, DefaultLoginError)) && made == 0
    ensures login.Resolved? && login.ok ==> (r, made) == ProbesFrom(probe, 0)
    ensures made <= MaxProbes && waitedMs == ProbeDelayMs * made
    ensures r.LoggedIn? ==>
      1 <= made && Established(probe(made - 1)) && r.user == probe(made - 1).body.user.value
    ensures r.LoggedIn? ==> forall i :: 0 <= i < made - 1 ==> !Established(probe(i))
    ensures (login.Resolved? && login.ok &&
             forall i :: 0 <= i < MaxProbes ==> probe(i).Resolved? && !Established(probe(i)))
            ==> r == Failed(SessionNotEstablished) && made == MaxProbes
  {
    if login.Threw? {
      return Failed(login.message), 0, 0;
    }
    if !login.ok {
      return Failed(OrElse(login.body.message, DefaultLoginError)), 0, 0;
    }
    made, waitedMs := 0, 0;
    while made < MaxProbes
      invariant made <= MaxProbes && waitedMs == ProbeDelayMs * made
      invariant ProbesFrom(probe, made) == ProbesFrom(probe, 0)
      invariant forall i :: 0 <= i < made ==> probe(i).Resolved? && !Established(probe(i))
    {
      waitedMs := waitedMs + ProbeDelayMs;
      var p := probe(made);
      made := made + 1;
      if p.Threw? {
        return Failed(p.message), made, waitedMs;
      }
      if p.ok && p.body.user.Some? {
        return LoggedIn(p.body.user.value), made, waitedMs;
      }
    }
    return Failed(SessionNotEstablished), made, waitedMs;
  }
}

=== FILE: booking.dfy ===
/** Bookings ("tasks") as the pages hold them: the status vocabulary, the
    lifecycle the pages drive, and the by-id list updates they apply. */
module Booking {
  import opened Common
  import opened Seqs

  /** A task status. The pages compare raw strings, so any other string is
      kept as `Other`. */
  datatype Status = Pending | Accepted | OnTheWay | Completed | Cancelled | Other(text: string)

  const KnownTexts: set<string> := {"pending", "accepted", "on_the_way", "completed", "cancelled"}

  /** The string a page receives, read as a status. */
  function Parse(s: string): Status {
    if s == "pending" then Pending
    else if s == "accepted" then Accepted
    else if s == "on_the_way" then OnTheWay
    else if s == "completed" then Completed
    else if s == "cancelled" then Cancelled
    else Other(s)
  }

  /** The string a status is sent and compared as. */
  function Text(s: Status): string {
    match s
    case Pending => "pending"
    case Accepted => "accepted"
    case OnTheWay => "on_the_way"
    case Completed => "completed"
    case Cancelled => "cancelled"
    case Other(t) => t
  }

  /** `Other` never spells one of the five known statuses. */
  predicate Canonical(s: Status) {
    s.Other? ==> s.text !in KnownTexts
  }

  /** Reading a string as a status loses nothing. */
  lemma TextParse(t: string)
    ensures Text(Parse(t)) == t
    ensures Canonical(Parse(t))
  {
  }

  /** And a canonical status survives being sent as text and read back. */
  lemma ParseText(s: Status)
    requires Canonical(s)
    ensures Parse(Text(s)) == s
  {
  }

  /** A status as a task holds it: a string the server sends is read with
      `Parse`, so a task whose status spells a known one holds that one and
      never an `Other` with the same text. */
  type KnownStatus = s: Status | Canonical(s) witness Pending

  /** Comparing two task statuses as strings, as the pages do, is the same as
      comparing them as statuses. */
  lemma {:induction false} TextDecidesKnownStatus(a: KnownStatus, b: KnownStatus)
    ensures Text(a) == Text(b) <==> a == b
  {
    if Text(a) == Text(b) {
      ParseText(a);
      ParseText(b);
    }
  }

  /** A task record as the customer and rider pages display it. */
  datatype Task = Task(id: string, name: string, task: string, pickup: string,
                       dropoff: string, datetime: string, notes: string, status: KnownStatus)

  predicate Terminal(s: Status) {
    s == Completed || s == Cancelled
  }

  /** The booking lifecycle the client is written against: pending, accepted,
      on the way, completed, with cancellation from any non-terminal status. */
  predicate Step(from: Status, to: Status) {
    || (from == Pending && to == Accepted)
    || (from == Accepted && to == OnTheWay)
    || (from == OnTheWay && to == Completed)
    || (from in {Pending, Accepted, OnTheWay} && to == Cancelled)
  }

  /** Position along the lifecycle; every step moves strictly forward. */
  function Rank(s: Status): nat {
    match s
    case Pending => 0
    case Accepted => 1
    case OnTheWay => 2
    case Completed => 3
    case Cancelled => 3
    case Other(_) => 0
  }

  /** The targets `updateStatus` is typed to accept. */
  const RiderTargets: set<Status> := {OnTheWay, Completed, Cancelled}

  /** The status buttons the rider's active-bookings card shows. */
  function RiderOffers(s: Status): (r: set<Status>)
    ensures r <= RiderTargets
    ensures forall t :: t in r ==> Step(s, t) && Rank(s) < Rank(t)
    ensures Terminal(s) || s == Pending || s.Other? ==> r == {}
  {
    if s == Accepted then {OnTheWay, Cancelled}
    else if s == OnTheWay then {Completed, Cancelled}
    else {}
  }

  /** The rider page offers every lifecycle step except those out of
      `pending`, which belong to accepting (rider) and cancelling (customer). */
  lemma RiderOffersMatchLifecycle(s: Status, t: Status)
    ensures Step(s, t) <==> t in RiderOffers(s) || (s == Pending && t in {Accepted, Cancelled})
  {
  }

  /** A sequence of statuses each reached by a button the rider page offers. */
  predicate OfferedPath(p: seq<Status>) {
    forall i :: 0 < i < |p| ==> p[i] in RiderOffers(p[i - 1])
  }

  /** Along offered buttons the lifecycle only moves forward. */
  lemma {:induction false} OfferedPathRises(p: seq<Status>)
    requires |p| >= 1 && OfferedPath(p)
    ensures Rank(p[0]) + |p| - 1 <= Rank(p[|p| - 1])
    decreases |p|
  {
    if |p| > 1 {
      var q := p[..|p| - 1];
      assert OfferedPath(q) by {
        forall i | 0 < i < |q| ensures q[i] in RiderOffers(q[i - 1]) {
          assert q[i] == p[i] && q[i - 1] == p[i - 1];
        }
      }
      OfferedPathRises(q);
      assert p[|p| - 1] in RiderOffers(p[|p| - 2]);
    }
  }

  /** Hence no status is ever revisited, and a task passes through at most
      three statuses on the rider page. */
  lemma OfferedPathNeverRepeats(p: seq<Status>, i: int, j: int)
    requires |p| >= 1 && OfferedPath(p)
    requires 0 <= i < j < |p|
    ensures p[i] != p[j]
    ensures |p| <= 3
  {
    var q := p[i..j + 1];
    assert OfferedPath(q) by {
      forall k | 0 < k < |q| ensures q[k] in RiderOffers(q[k - 1]) {
        assert q[k] == p[i + k] && q[k - 1] == p[i + k - 1];
      }
    }
    OfferedPathRises(q);
    assert p[1] in RiderOffers(p[0]);
    OfferedPathRises(p);
  }

  /** `prev.filter(t => t.id !== id)`: drops every task with that id. */
  function RemoveById(ts: seq<Task>, id: string): (r: seq<Task>)
    ensures forall t :: t in r <==> t in ts && t.id != id
    ensures |r| <= |ts|
  {
    Filter(ts, (t: Task) => t.id != id)
  }

  /** Removal keeps the survivors in order and loses exactly the matches. */
  lemma RemoveByIdCounts(ts: seq<Task>, id: string)
    ensures |RemoveById(ts, id)| + |Filter(ts, (t: Task) => t.id == id)| == |ts|
    ensures (forall i :: 0 <= i < |ts| ==> ts[i].id != id) ==> RemoveById(ts, id) == ts
  {
    FilterPartition(ts, (t: Task) => t.id != id, (t: Task) => t.id == id);
    if forall i :: 0 <= i < |ts| ==> ts[i].id != id {
      FilterKeepsAll(ts, (t: Task) => t.id != id);
    }
  }

  /** `prev.map(t => t.id === id ? {...t, status} : t)`. */
  function SetStatusById(ts: seq<Task>, id: string, s: KnownStatus): (r: seq<Task>)
    ensures |r| == |ts|
    ensures forall i :: 0 <= i < |ts| ==> r[i].id == ts[i].id
    ensures forall i :: 0 <= i < |ts| && ts[i].id != id ==> r[i] == ts[i]
    ensures forall i :: 0 <= i < |ts| && ts[i].id == id ==> r[i] == ts[i].(status := s)
  {
    if |ts| == 0 then []
    else
      var head := if ts[0].id == id then ts[0].(status := s) else ts[0];
      var rest := SetStatusById(ts[1..], id, s);
      assert forall i :: 1 <= i < |ts| ==> ([head] + rest)[i] == rest[i - 1] && ts[i] == ts[1..][i - 1];
      [head] + rest
  }

  /** Setting the same status twice is setting it once. */
  lemma SetStatusByIdIdempotent(ts: seq<Task>, id: string, s: KnownStatus)
    ensures SetStatusById(SetStatusById(ts, id, s), id, s) == SetStatusById(ts, id, s)
  {
  }

  /** `prev.map(t => t.id === u.id ? u : t)`. */
  function ReplaceById(ts: seq<Task>, u: Task): (r: seq<Task>)
    ensures |r| == |ts|
    ensures forall i :: 0 <= i < |ts| ==> r[i] == (if ts[i].id == u.id then u else ts[i])
  {
    if |ts| == 0 then []
    else
      var rest := ReplaceById(ts[1..], u);
      assert forall i :: 1 <= i < |ts| ==> ts[i] == ts[1..][i - 1];
      [if ts[0].id == u.id then u else ts[0]] + rest
  }

  /** The two booking-history tabs. */
  datatype Tab = CompletedTab | CancelledTab

  function TabStatus(tab: Tab): (s: Status)
    ensures Terminal(s)
  {
    if tab == CompletedTab then Completed else Cancelled
  }

  /** `tasks.filter(t => t.status === activeTab)`. */
  function HistoryView(ts: seq<Task>, tab: Tab): (r: seq<Task>)
    ensures forall t :: t in r <==> t in ts && t.status == TabStatus(tab)
    ensures forall t :: t in r ==> Terminal(t.status)
  {
    Filter(ts, (t: Task) => t.status == TabStatus(tab))
  }

  /** The two tabs never show the same task, and between them they show at
      most the whole list. */
  lemma HistoryTabsDisjoint(ts: seq<Task>)
    ensures forall t :: t in HistoryView(ts, CompletedTab) ==> t !in HistoryView(ts, CancelledTab)
    ensures |HistoryView(ts, CompletedTab)| + |HistoryView(ts, CancelledTab)| <= |ts|
  {
    var notCompleted := (t: Task) => t.status != Completed;
    var cancelled := (t: Task) => t.status == Cancelled;
    var both := (t: Task) => t.status != Completed && t.status == Cancelled;
    FilterPartition(ts, (t: Task) => t.status == Completed, notCompleted);
    FilterFilter(ts, notCompleted, cancelled, both);
    assert Filter(ts, both) == HistoryView(ts, CancelledTab) by {
      FilterEquivalent(ts, both, cancelled);
    }
  }

  /** Filters by equivalent predicates agree. */
  lemma {:induction false} FilterEquivalent(ts: seq<Task>, p: Task -> bool, q: Task -> bool)
    requires forall t :: p(t) == q(t)
    ensures Filter(ts, p) == Filter(ts, q)
    decreases |ts|
  {
    if |ts| > 0 {
      FilterEquivalent(ts[1..], p, q);
    }
  }

  /** `handleToggleDetails(id)`: flips one id in the expanded set. */
  function ToggleDetails(expanded: set<string>, id: string): (r: set<string>)
    ensures id in r <==> id !in expanded
    ensures forall x :: x != id ==> (x in r <==> x in expanded)
  {
    if id in expanded then expanded - {id} else expanded + {id}
  }

  /** Toggling the same card twice restores the set. This records a design
      fact that follows directly from set algebra; it is not a proof. */
  lemma ToggleDetailsTwice(expanded: set<string>, id: string)
    ensures ToggleDetails(ToggleDetails(expanded, id), id) == expanded
  {
  }
}

=== FILE: common.dfy ===
/** Vocabulary shared by every page: JavaScript truthiness of optional
    strings, the outcome of a `fetch` as a handler observes it, the router
    effect a handler requests, and the user object the API returns. */
module Common {

  datatype Option<+T> = None | Some(value: T)

  /** `if (x)` on a `string | null`: both null and "" are falsy. */
  predicate Truthy(s: Option<string>) {
    s.Some? && s.value != ""
  }

  /** `a || b` on an optional string. */
  function OrElse(s: Option<string>, default: string): string {
    if Truthy(s) then s.value else default
  }

  /** A request as the handler sees it once `res.json()` has been awaited:
      either something on the way threw (network failure, unparsable body),
      or the response resolved with its `ok` flag and its parsed body. */
  datatype Fetched<+B> = Threw(message: string) | Resolved(ok: bool, body: B)

  /** The navigation a handler requested: `router.push`, `router.replace`,
      an assignment to `window.location.href`, or none at all. */
  datatype Nav = Stay | Push(path: string) | Replace(path: string) | Assign(path: string)
  {
    /** The route the browser ends up on, whatever the mechanism. */
    function Target(): Option<string> {
      if Stay? then None else Some(path)
    }
  }

  const LoginPath := "/login"
  const NotAuthorizedPath := "/not-authorized"
  const RootPath := "/"
  const CustomerDashboardPath := "/customer/dashboard"
  const RiderDashboardPath := "/rider/dashboard"
  const BookStatusPath := "/customer/bookstatus"

  const CustomerRole := "customer"
  const RiderRole := "rider"

  /** A user object parsed from a response body. A missing string field
      reads as "" (falsy), a missing `name` as None. */
  datatype RawUser = RawUser(id: string, email: string, name: Option<string>, role: string)

  /** The body of `GET /auth/me`: `{ user }`, where `user` may be absent. */
  datatype MeBody = MeBody(user: Option<RawUser>)

  /** A token's JWT payload as the pages read it (`atob` and `JSON.parse`
      of the middle segment): decoding can fail, or yield a `role` claim
      that may be absent. */
  datatype Decoded = Undecodable | Claims(role: Option<string>)
}

=== FILE: customer_pages.dfy ===
/** The customer's booking lists: book status (`src/app/customer/bookstatus`),
    the chat list (`src/app/customer/chat`) and booking history
    (`src/app/customer/book-history`). */
module CustomerPages {
  import opened Common
  import opened TokenStore
  import opened Booking
  import opened Seqs

  /** Statuses the book-status page lists. */
  const ActiveStatuses: set<Status> := {Pending, Accepted, OnTheWay}

  /** Statuses the chat list offers a conversation for. */
  const ChatStatuses: set<Status> := {Accepted, OnTheWay}

  function ActiveTasks(ts: seq<Task>): (r: seq<Task>)
    ensures forall t :: t in r <==> t in ts && t.status in ActiveStatuses
    ensures forall t :: t in r ==> !Terminal(t.status)
  {
    Filter(ts, (t: Task) => t.status in ActiveStatuses)
  }

  function ChatTasks(ts: seq<Task>): (r: seq<Task>)
    ensures forall t :: t in r <==> t in ts && t.status in ChatStatuses
  {
    Filter(ts, (t: Task) => t.status in ChatStatuses)
  }

  /** The chat list is the active list without the pending bookings, in the
      same order: a booking is chattable once a rider accepted it. */
  lemma ChatIsActiveWithoutPending(ts: seq<Task>)
    ensures ChatTasks(ts) == Filter(ActiveTasks(ts), (t: Task) => t.status != Pending)
  {
    FilterFilter(ts, (t: Task) => t.status in ActiveStatuses, (t: Task) => t.status != Pending,
                 (t: Task) => t.status in ChatStatuses);
  }

  /** The active list and either history tab never share a booking. */
  lemma ActiveAndHistoryDisjoint(ts: seq<Task>, tab: Tab)
    ensures forall t :: t in ActiveTasks(ts) ==> t !in HistoryView(ts, tab)
  {
  }

  /** State of the book-status page. */
  datatype BookStatus = BookStatus(user: Option<Option<RawUser>>, tasks: seq<Task>,
                                   selected: Option<Task>, loading: bool, nav: Nav, alerted: bool)

  const BookStatusStart := BookStatus(None, [], None, true, Stay, false)

  /** Book-status `fetchData`. The token is read from `localStorage` only.
      The task body is `None` when it is not an array: `.filter` then
      throws and the catch leaves the list as it was. The task status code
      is never checked. */
  function BookStatusLoad(s: BookStatus, b: Browser, me: Fetched<MeBody>,
                          list: Fetched<Option<seq<Task>>>): (r: BookStatus)
    ensures !Truthy(Get(b.local, TokenKey)) ==> r == s.(nav := Push(LoginPath))
    ensures Truthy(Get(b.local, TokenKey)) ==> !r.loading
    ensures Truthy(Get(b.local, TokenKey)) && me.Resolved? && !me.ok ==>
      r.nav == Push(LoginPath) && r.tasks == s.tasks && r.user == s.user
    ensures r.tasks != s.tasks ==>
      me.Resolved? && me.ok && list.Resolved? && list.body.Some? &&
      r.tasks == ActiveTasks(list.body.value)
    ensures Truthy(Get(b.local, TokenKey)) && me.Resolved? && me.ok && list.Resolved? && list.body.Some? ==>
      r.tasks == ActiveTasks(list.body.value) && r.user == Some(me.body.user)
    ensures Truthy(Get(b.local, TokenKey)) && me.Resolved? && me.ok ==>
      r.user == Some(me.body.user) && r.nav == s.nav &&
      (!(list.Resolved? && list.body.Some?) ==> r.tasks == s.tasks)
    ensures Truthy(Get(b.local, TokenKey)) && me.Threw? ==> r == s.(loading := false)
  {
    if !Truthy(Get(b.local, TokenKey)) then s.(nav := Push(LoginPath))
    else match me
      case Threw(_) => s.(loading := false)
      case Resolved(ok, body) =>
        if !ok then s.(nav := Push(LoginPath), loading := false)
        else
          var withUser := s.(user := Some(body.user), loading := false);
          if list.Resolved? && list.body.Some? then withUser.(tasks := ActiveTasks(list.body.value))
          else withUser
  }

  /** Book-status `cancelTask(id)` (`DELETE /tasks/:id`): without a stored
      token nothing happens; an ok response removes that booking; anything
      else alerts and keeps the list. */
  function CancelTask(s: BookStatus, b: Browser, id: string, res: Fetched<()>): (r: BookStatus)
    ensures r.selected == s.selected && r.nav == s.nav && r.loading == s.loading
    ensures Truthy(Get(b.local, TokenKey)) && res.Resolved? && res.ok ==>
      forall t :: t in r.tasks <==> t in s.tasks && t.id != id
    ensures !(Truthy(Get(b.local, TokenKey)) && res.Resolved? && res.ok) ==> r.tasks == s.tasks
    ensures r.alerted <==> s.alerted || (Truthy(Get(b.local, TokenKey)) && !(res.Resolved? && res.ok))
  {
    if !Truthy(Get(b.local, TokenKey)) then s
    else if res.Resolved? && res.ok then s.(tasks := RemoveById(s.tasks, id))
    else s.(alerted := true)
  }

  /** Book-status `updateTask()`: sends the selected booking; on success the
      booking whose id matches the RETURNED task is replaced by it, the rest
      and the length are kept, and the selection is cleared. */
  function UpdateTask(s: BookStatus, b: Browser, res: Fetched<Task>): (r: BookStatus)
    ensures |r.tasks| == |s.tasks|
    ensures !Truthy(Get(b.local, TokenKey)) || s.selected.None? ==> r == s
    ensures Truthy(Get(b.local, TokenKey)) && s.selected.Some? && res.Resolved? && res.ok ==>
      r.selected.None? &&
      forall i :: 0 <= i < |s.tasks| ==>
        r.tasks[i] == (if s.tasks[i].id == res.body.id then res.body else s.tasks[i])
    ensures !(res.Resolved? && res.ok) ==> r.tasks == s.tasks && r.selected == s.selected
    ensures Truthy(Get(b.local, TokenKey)) && s.selected.Some? ==> (r.alerted <==> s.alerted || !(res.Resolved? && res.ok))
  {
    if !Truthy(Get(b.local, TokenKey)) || s.selected.None? then s
    else if res.Resolved? && res.ok then s.(tasks := ReplaceById(s.tasks, res.body), selected := None)
    else s.(alerted := true)
  }

  const BadgeBase := "inline-block px-2 py-1 text-xs font-semibold rounded "
  const GreyBadge := "bg-gray-100 text-gray-700"

  /** The per-status colour classes of `getStatusBadge`. */
  function BadgeColour(s: Status): string {
    match s
    case Pending => "bg-yellow-100 text-yellow-700"
    case Accepted => "bg-blue-100 text-blue-700"
    case OnTheWay => "bg-indigo-100 text-indigo-700"
    case Completed => "bg-green-100 text-green-700"
    case Cancelled => "bg-red-100 text-red-700"
    case Other(_) => GreyBadge
  }

  /** `getStatusBadge(status)`: the shared prefix, then a colour that tells
      the five known statuses apart; every other string is grey. */
  function StatusBadge(s: Status): (r: string)
    ensures BadgeBase <= r
    ensures s.Other? <==> r == BadgeBase + GreyBadge
  {
    var r := BadgeBase + BadgeColour(s);
    assert r[|BadgeBase|..] == BadgeColour(s);
    assert (BadgeBase + GreyBadge)[|BadgeBase|..] == GreyBadge;
    assert !s.Other? ==> BadgeColour(s)[5] != GreyBadge[5];
    r
  }

  /** Two different known statuses never share a badge. */
  lemma BadgeSeparatesKnownStatuses(a: Status, b: Status)
    requires !a.Other? && !b.Other? && a != b
    ensures StatusBadge(a) != StatusBadge(b)
  {
    assert StatusBadge(a)[|BadgeBase|..] == BadgeColour(a);
    assert StatusBadge(b)[|BadgeBase|..] == BadgeColour(b);
  }

  /** The second button of a booking card. */
  datatype CardAction = CancelBooking | ChatWithRider

  function CardActionFor(s: Status): (a: CardAction)
    ensures a == CancelBooking <==> s == Pending
  {
    if s == Pending then CancelBooking else ChatWithRider
  }

  /** Only a pending booking can be edited in the details modal. */
  function Editable(selected: Task): (e: bool)
    ensures e <==> CardActionFor(selected.status) == CancelBooking
  {
    selected.status == Pending
  }

  /** `status.replace(/_/g, ' ')`. */
  function DisplayStatus(text: string): (r: string)
    ensures |r| == |text|
    ensures forall i :: 0 <= i < |text| ==> r[i] == (if text[i] == '_' then ' ' else text[i])
  {
    if |text| == 0 then ""
    else
      var rest := DisplayStatus(text[1..]);
      assert forall i :: 1 <= i < |text| ==> text[i] == text[1..][i - 1];
      [if text[0] == '_' then ' ' else text[0]] + rest
  }

  /** No underscore survives, and displaying twice is displaying once. */
  lemma DisplayStatusClean(text: string)
    ensures '_' !in DisplayStatus(text)
    ensures DisplayStatus(DisplayStatus(text)) == DisplayStatus(text)
  {
    var r := DisplayStatus(text);
    assert forall i :: 0 <= i < |r| ==> r[i] != '_';
  }

  /** The one multi-word status reads as words. */
  lemma DisplayOnTheWay()
    ensures DisplayStatus(Text(OnTheWay)) == "on the way"
  {
  }

  /** The route a chat-list card opens: `/customer/chat/<id>`. */
  function ChatRoute(id: string): (p: string)
    ensures |p| > |"/customer/chat/"| - 1 && p[..|"/customer/chat/"|] == "/customer/chat/"
    ensures p[|"/customer/chat/"|..] == id
  {
    "/customer/chat/" + id
  }

  /** State of the chat-list page. */
  datatype ChatList = ChatList(user: Option<Option<RawUser>>, tasks: seq<Task>, nav: Nav)

  /** Chat list, user effect: only an ok `/auth/me` keeps the page; a
      non-ok one or a failure goes to `/login`. */
  function ChatCheckUser(s: ChatList, me: Fetched<MeBody>): (r: ChatList)
    ensures r.tasks == s.tasks
    ensures me.Resolved? && me.ok ==> r.user == Some(me.body.user) && r.nav == s.nav
    ensures !(me.Resolved? && me.ok) ==> r.nav == Push(LoginPath) && r.user == s.user
  {
    if me.Resolved? && me.ok then s.(user := Some(me.body.user)) else s.(nav := Push(LoginPath))
  }

  /** Chat list, task effect, independent of the user check: the body is
      used whatever the status; a failure or a non-array body leaves the
      list (the rejection is unhandled). */
  function ChatLoadTasks(s: ChatList, list: Fetched<Option<seq<Task>>>): (r: ChatList)
    ensures r.user == s.user && r.nav == s.nav
    ensures list.Resolved? && list.body.Some? ==> r.tasks == ChatTasks(list.body.value)
    ensures !(list.Resolved? && list.body.Some?) ==> r.tasks == s.tasks
  {
    if list.Resolved? && list.body.Some? then s.(tasks := ChatTasks(list.body.value)) else s
  }

  /** The two effects touch disjoint fields, so their order does not matter. */
  lemma ChatEffectsCommute(s: ChatList, me: Fetched<MeBody>, list: Fetched<Option<seq<Task>>>)
    ensures ChatLoadTasks(ChatCheckUser(s, me), list) == ChatCheckUser(ChatLoadTasks(s, list), me)
  {
  }

  /** State of the customer's booking-history page. */
  datatype History = History(user: Option<Option<RawUser>>, tasks: seq<Task>, loading: bool,
                             nav: Nav, tasksRequested: bool)

  const HistoryStart := History(None, [], true, Stay, false)

  /** Booking-history `fetchData`: no stored token sends the window to
      `/login` before any request; a non-ok `/auth/me` does too and the task
      list is never requested; a non-ok task response throws, so the list
      stays as it was. */
  function HistoryLoad(s: History, b: Browser, me: Fetched<MeBody>, list: Fetched<seq<Task>>): (r: History)
    ensures !Truthy(Get(b.local, TokenKey)) ==> r == s.(nav := Assign(LoginPath))
    ensures Truthy(Get(b.local, TokenKey)) ==> !r.loading
    ensures r.tasksRequested != s.tasksRequested ==> me.Resolved? && me.ok
    ensures Truthy(Get(b.local, TokenKey)) && me.Resolved? && !me.ok ==>
      r.nav == Assign(LoginPath) && r.tasksRequested == s.tasksRequested && r.tasks == s.tasks
    ensures r.tasks != s.tasks ==> list.Resolved? && list.ok && r.tasks == list.body
    ensures Truthy(Get(b.local, TokenKey)) && me.Resolved? && me.ok ==>
      r.user == Some(me.body.user) && r.tasksRequested && r.nav == s.nav &&
      (list.Resolved? && list.ok ==> r.tasks == list.body) &&
      (!(list.Resolved? && list.ok) ==> r.tasks == s.tasks)
    ensures Truthy(Get(b.local, TokenKey)) && me.Threw? ==> r == s.(loading := false)
  {
    if !Truthy(Get(b.local, TokenKey)) then s.(nav := Assign(LoginPath))
    else match me
      case Threw(_) => s.(loading := false)
      case Resolved(ok, body) =>
        if !ok then s.(nav := Assign(LoginPath), loading := false)
        else
          var withUser := s.(user := Some(body.user), tasksRequested := true, loading := false);
          if list.Resolved? && list.ok then withUser.(tasks := list.body) else withUser
  }

  /** From the initial state, a failed task request leaves history empty. */
  lemma HistoryFailedListIsEmpty(b: Browser, me: Fetched<MeBody>, list: Fetched<seq<Task>>, tab: Tab)
    requires !(list.Resolved? && list.ok)
    ensures HistoryLoad(HistoryStart, b, me, list).tasks == []
    ensures HistoryView(HistoryLoad(HistoryStart, b, me, list).tasks, tab) == []
  {
  }
}

=== FILE: dashboard.dfy ===
/** The customer dashboard (`src/app/customer/dashboard/page.tsx`): its
    `fetchUser` guard and the terms-then-tutorial onboarding gate, whose
    flags live in `localStorage`. */
module Dashboard {
  import opened Common
  import TokenStore

  const SeenTermsKey := "seenTerms"
  const SeenTutorialKey := "seenTutorial"
  const SeenValue := "true"

  predicate Seen(local: TokenStore.Store, key: string) {
    Truthy(TokenStore.Get(local, key))
  }

  datatype Dash = Dash(user: Option<RawUser>, loading: bool, showTerms: bool, showTutorial: bool,
                       nav: Nav, local: TokenStore.Store)

  function Start(local: TokenStore.Store): Dash {
    Dash(None, true, false, false, Stay, local)
  }

  /** `fetchUser`. The token comes from the in-memory store. A failed
      request, a non-ok status and a body without `user` all end in the
      catch, which pushes `/login`; a non-customer is pushed to
      `/not-authorized` and the user is not set. */
  function FetchUser(d: Dash, m: TokenStore.Tokens, me: Fetched<MeBody>): (r: Dash)
    ensures r.local == d.local
    ensures !Truthy(TokenStore.GetAccessToken(m)) ==> r == d.(nav := Push(LoginPath))
    ensures r.user != d.user || r.loading != d.loading ==>
      Truthy(TokenStore.GetAccessToken(m)) && me.Resolved? && me.ok && me.body.user.Some? &&
      me.body.user.value.role == CustomerRole && r.user == me.body.user && !r.loading && r.nav == d.nav
    ensures Truthy(TokenStore.GetAccessToken(m)) && !(me.Resolved? && me.ok && me.body.user.Some?) ==>
      r == d.(nav := Push(LoginPath))
    ensures (Truthy(TokenStore.GetAccessToken(m)) && me.Resolved? && me.ok && me.body.user.Some? &&
             me.body.user.value.role != CustomerRole) ==> r == d.(nav := Push(NotAuthorizedPath))
    ensures r.showTerms != d.showTerms ==> r.showTerms && !Seen(d.local, SeenTermsKey) && r.user.Some?
    ensures r.showTutorial != d.showTutorial ==>
      r.showTutorial && Seen(d.local, SeenTermsKey) && !Seen(d.local, SeenTutorialKey) && r.user.Some?
    ensures (Truthy(TokenStore.GetAccessToken(m)) && me.Resolved? && me.ok && me.body.user.Some? &&
             me.body.user.value.role == CustomerRole) ==>
      r.user == me.body.user && !r.loading && r.nav == d.nav &&
      r.showTerms == (d.showTerms || !Seen(d.local, SeenTermsKey)) &&
      r.showTutorial == (d.showTutorial || (Seen(d.local, SeenTermsKey) && !Seen(d.local, SeenTutorialKey)))
  {
    if !Truthy(TokenStore.GetAccessToken(m)) then d.(nav := Push(LoginPath))
    else match me
      case Threw(_) => d.(nav := Push(LoginPath))
      case Resolved(ok, body) =>
        if !ok || body.user.None? then d.(nav := Push(LoginPath))
        else if body.user.value.role != CustomerRole then d.(nav := Push(NotAuthorizedPath))
        else
          var signedIn := d.(user := body.user, loading := false);
          if !Seen(d.local, SeenTermsKey) then signedIn.(showTerms := true)
          else if !Seen(d.local, SeenTutorialKey) then signedIn.(showTutorial := true)
          else signedIn
  }

  /** `handleAgreeToTerms`. */
  function AgreeToTerms(d: Dash): (r: Dash)
    ensures Seen(r.local, SeenTermsKey) && !r.showTerms
    ensures r.showTutorial == (d.showTutorial || !Seen(d.local, SeenTutorialKey))
    ensures forall k :: k != SeenTermsKey ==> TokenStore.Get(r.local, k) == TokenStore.Get(d.local, k)
  {
    var local := d.local[SeenTermsKey := SeenValue];
    assert Seen(local, SeenTermsKey);
    d.(local := local, showTerms := false,
       showTutorial := d.showTutorial || !Seen(local, SeenTutorialKey))
  }

  /** The tutorial's `onClose`. */
  function CloseTutorial(d: Dash): (r: Dash)
    ensures Seen(r.local, SeenTutorialKey) && !r.showTutorial && r.showTerms == d.showTerms
    ensures forall k :: k != SeenTutorialKey ==> TokenStore.Get(r.local, k) == TokenStore.Get(d.local, k)
  {
    var local := d.local[SeenTutorialKey := SeenValue];
    assert Seen(local, SeenTutorialKey);
    d.(local := local, showTutorial := false)
  }

  /** The two onboarding modals are never open together. */
  predicate OneModal(d: Dash) {
    !(d.showTerms && d.showTutorial)
  }

  /** `OneModal` holds on mount and is kept by every onboarding step; a
      user who has seen both never gets a modal from `fetchUser`. */
  lemma OnboardingInvariant(d: Dash, m: TokenStore.Tokens, me: Fetched<MeBody>, local: TokenStore.Store)
    ensures OneModal(FetchUser(Start(local), m, me))
    ensures OneModal(d) ==> OneModal(AgreeToTerms(d)) && OneModal(CloseTutorial(d))
    ensures Seen(local, SeenTermsKey) && Seen(local, SeenTutorialKey) ==>
      var r := FetchUser(Start(local), m, me); !r.showTerms && !r.showTutorial
  {
  }

  /** Terms first, then the tutorial: after agreeing and closing, both
      flags are recorded, so the next visit opens no modal. */
  lemma OnboardingCompletes(d: Dash, m: TokenStore.Tokens, me: Fetched<MeBody>)
    ensures var after := CloseTutorial(AgreeToTerms(d));
      var next := FetchUser(Start(after.local), m, me);
      !next.showTerms && !next.showTutorial
  {
  }

  /** The name passed to the top bar: `name`, or `Customer` when it is
      missing or empty. */
  function TopBarName(u: RawUser): (n: string)
    ensures Truthy(u.name) ==> n == u.name.value
    ensures !Truthy(u.name) ==> n == "Customer"
  {
    OrElse(u.name, "Customer")
  }
}

=== FILE: help.dfy ===
/** The auth checks of the customer help pages and the trip page. Each
    decides, from a token and one response, where the browser goes and
    whether the page stops loading: `src/app/customer/help/page.tsx`,
    `src/app/customer/help/add-to-home/page.tsx`,
    `src/app/customer/trip/page.tsx` and
    `src/app/customer/help/how-to-use/page.tsx`. */
module Help {
  import opened Common
  import TokenStore

  /** Help page state: `tokenValid` gates rendering. */
  datatype HelpPage = HelpPage(tokenValid: bool, profileName: string, nav: Nav)

  const HelpStart := HelpPage(false, "User", Stay)

  /** `validateToken`: the token is read from `localStorage` only. */
  function ValidateToken(p: HelpPage, local: TokenStore.Store, me: Fetched<MeBody>): (r: HelpPage)
    ensures !Truthy(TokenStore.Get(local, TokenStore.TokenKey)) ==> r == p.(nav := Push(LoginPath))
    ensures r.tokenValid != p.tokenValid ==> r.tokenValid && me.Resolved? && me.ok
    ensures Truthy(TokenStore.Get(local, TokenStore.TokenKey)) && me.Resolved? && me.ok ==>
      r.tokenValid && r.nav == p.nav &&
      r.profileName == (if me.body.user.Some? then OrElse(me.body.user.value.name, "User") else "User")
    ensures Truthy(TokenStore.Get(local, TokenStore.TokenKey)) && !(me.Resolved? && me.ok) ==>
      r == p.(nav := Push(LoginPath))
  {
    if !Truthy(TokenStore.Get(local, TokenStore.TokenKey)) then p.(nav := Push(LoginPath))
    else if me.Resolved? && me.ok then
      p.(profileName := if me.body.user.Some? then OrElse(me.body.user.value.name, "User") else "User",
         tokenValid := true)
    else p.(nav := Push(LoginPath))
  }

  /** Nothing renders until the token is valid; from mount, that happens
      exactly when a stored token meets an ok `/auth/me`, and the page then
      never navigates. */
  lemma HelpRendersOnlyWhenValid(local: TokenStore.Store, me: Fetched<MeBody>)
    ensures var r := ValidateToken(HelpStart, local, me);
      r.tokenValid <==> Truthy(TokenStore.Get(local, TokenStore.TokenKey)) && me.Resolved? && me.ok
    ensures var r := ValidateToken(HelpStart, local, me);
      r.tokenValid <==> r.nav == Stay
  {
  }

  /** A guarded page's outcome: the navigation and the two flags set in
      `finally` (`fadeIn` only exists on the trip page). */
  datatype Guarded = Guarded(nav: Nav, loading: bool, fadeIn: bool)

  const GuardStart := Guarded(Stay, true, false)

  /** Add-to-home `verifyUser`: in-memory token, `GET /auth/token`, decoded
      role. Without a token it pushes `/login` and loading is never
      cleared; the request path always clears it. */
  function VerifyUser(m: TokenStore.Tokens, res: Fetched<Decoded>): (r: Guarded)
    ensures !Truthy(TokenStore.GetAccessToken(m)) ==> r == GuardStart.(nav := Push(LoginPath))
    ensures Truthy(TokenStore.GetAccessToken(m)) ==> !r.loading
    ensures Truthy(TokenStore.GetAccessToken(m)) && !(res.Resolved? && res.ok && res.body.Claims?) ==>
      r.nav == Push(LoginPath)
    ensures Truthy(TokenStore.GetAccessToken(m)) && res.Resolved? && res.ok && res.body.Claims? ==>
      (r.nav == Stay <==> res.body.role == Some(CustomerRole)) &&
      (r.nav != Stay ==> r.nav == Push(NotAuthorizedPath))
  {
    if !Truthy(TokenStore.GetAccessToken(m)) then GuardStart.(nav := Push(LoginPath))
    else
      var nav :=
        if !(res.Resolved? && res.ok && res.body.Claims?) then Push(LoginPath)
        else if res.body.role != Some(CustomerRole) then Push(NotAuthorizedPath)
        else Stay;
      GuardStart.(nav := nav, loading := false)
  }

  /** Trip `checkAuth`: `localStorage` token, `GET /auth/token`, decoded
      role; every failure, a wrong role included, replaces with `/login`. */
  function TripCheckAuth(local: TokenStore.Store, res: Fetched<Decoded>): (r: Guarded)
    ensures !Truthy(TokenStore.Get(local, TokenStore.TokenKey)) ==> r == GuardStart.(nav := Replace(LoginPath))
    ensures Truthy(TokenStore.Get(local, TokenStore.TokenKey)) ==> !r.loading && r.fadeIn
    ensures r.nav == Stay || r.nav == Replace(LoginPath)
    ensures r.nav == Stay <==>
      Truthy(TokenStore.Get(local, TokenStore.TokenKey)) && res.Resolved? && res.ok &&
      res.body == Claims(Some(CustomerRole))
  {
    if !Truthy(TokenStore.Get(local, TokenStore.TokenKey)) then GuardStart.(nav := Replace(LoginPath))
    else
      var admitted := res.Resolved? && res.ok && res.body == Claims(Some(CustomerRole));
      Guarded(if admitted then Stay else Replace(LoginPath), false, true)
  }

  /** Add-to-home and trip admit exactly the same customers; they differ in
      where a non-customer is sent and which token they read. */
  lemma AddToHomeAndTripAgree(m: TokenStore.Tokens, local: TokenStore.Store, res: Fetched<Decoded>)
    requires Truthy(TokenStore.GetAccessToken(m)) && Truthy(TokenStore.Get(local, TokenStore.TokenKey))
    ensures VerifyUser(m, res).nav == Stay <==> TripCheckAuth(local, res).nav == Stay
  {
  }

  /** A response body read without assuming its shape: a top-level `role`
      and a `user`. `GET /auth/me` sends `{ user }`, so its top-level
      `role` is absent. */
  datatype AnyBody = AnyBody(role: Option<string>, user: Option<RawUser>)

  function FromMe(b: MeBody): AnyBody {
    AnyBody(None, b.user)
  }

  /** How-to-use `checkAuth` as written: it tests the top-level `role`.
      A missing token throws inside the `try`, so loading is cleared on
      every path. */
  function HowToUseCheckAsWritten(m: TokenStore.Tokens, me: Fetched<AnyBody>): (r: Guarded)
    ensures !r.loading && !r.fadeIn
    ensures r.nav == Stay <==>
      Truthy(TokenStore.GetAccessToken(m)) && me.Resolved? && me.ok && me.body.role == Some(CustomerRole)
    ensures !(Truthy(TokenStore.GetAccessToken(m)) && me.Resolved? && me.ok) ==> r.nav == Push(LoginPath)
  {
    var nav :=
      if !(Truthy(TokenStore.GetAccessToken(m)) && me.Resolved? && me.ok) then Push(LoginPath)
      else if me.body.role != Some(CustomerRole) then Push(NotAuthorizedPath)
      else Stay;
    Guarded(nav, false, false)
  }

  /** Corrected: test `user.role`, as every other reader of `/auth/me` does. */
  function HowToUseCheck(m: TokenStore.Tokens, me: Fetched<AnyBody>): (r: Guarded)
    ensures !r.loading && !r.fadeIn
    ensures r.nav == Stay <==>
      Truthy(TokenStore.GetAccessToken(m)) && me.Resolved? && me.ok &&
      me.body.user.Some? && me.body.user.value.role == CustomerRole
    ensures !(Truthy(TokenStore.GetAccessToken(m)) && me.Resolved? && me.ok) ==> r.nav == Push(LoginPath)
    ensures r.nav != Stay && r.nav != Push(LoginPath) ==> r.nav == Push(NotAuthorizedPath)
  {
    var nav :=
      if !(Truthy(TokenStore.GetAccessToken(m)) && me.Resolved? && me.ok) then Push(LoginPath)
      else if me.body.user.None? || me.body.user.value.role != CustomerRole then Push(NotAuthorizedPath)
      else Stay;
    Guarded(nav, false, false)
  }

  /** As written, no answer `/auth/me` can give admits anyone: a signed-in
      customer is sent to `/not-authorized`. The corrected check admits
      exactly the customers. */
  lemma HowToUseRejectsEveryCustomer(m: TokenStore.Tokens, u: RawUser)
    requires Truthy(TokenStore.GetAccessToken(m)) && u.role == CustomerRole
    ensures HowToUseCheckAsWritten(m, Resolved(true, FromMe(MeBody(Some(u))))).nav == Push(NotAuthorizedPath)
    ensures HowToUseCheck(m, Resolved(true, FromMe(MeBody(Some(u))))).nav == Stay
  {
  }

  lemma HowToUseAsWrittenNeverAdmits(m: TokenStore.Tokens, me: Fetched<MeBody>)
    ensures var r := HowToUseCheckAsWritten(m, if me.Threw? then Threw(me.message) else Resolved(me.ok, FromMe(me.body)));
      r.nav != Stay
  {
  }
}

=== FILE: login.dfy ===
/** The login page (`src/app/login/page.tsx`): it calls `loginUser`,
    double-checks the session with `/auth/me`, and sends the window to
    the dashboard that matches the user's role. */
module Login {
  import opened Common
  import Api

  /** What the awaited `loginUser` call did: returned a value (an absent or
      falsy user is `None`), threw an `Error` with a message, or threw
      something that is not an `Error`. */
  datatype Outcome = Returned(user: Option<RawUser>) | ThrewError(message: string) | ThrewOther

  /** Every failure of `loginUser` is an `Error` whose message is shown. */
  function FromApi(r: Api.LoginResult): (o: Outcome)
    ensures r.LoggedIn? <==> o.Returned?
    ensures r.LoggedIn? ==> o == Returned(Some(r.user))
    ensures r.Failed? ==> o == ThrewError(r.message)
  {
    match r
    case LoggedIn(u) => Returned(Some(u))
    case Failed(m) => ThrewError(m)
  }

  const FillAllFields := "❗ Please fill in all fields."
  const LoggingIn := "Logging in..."
  const Established := "✅ Login & session established! Redirecting..."
  const NotEstablished := "⚠️ Login succeeded but session not established."
  const LoginFailed := "❌ Login failed. Please try again."
  const SomethingWrong := "❌ Something went wrong."

  /** A rider goes to the rider dashboard; every other role, including an
      unknown one, to the customer dashboard. */
  function Destination(role: string): (path: string)
    ensures path == RiderDashboardPath <==> role == RiderRole
    ensures path == CustomerDashboardPath <==> role != RiderRole
  {
    if role == RiderRole then RiderDashboardPath else CustomerDashboardPath
  }

  datatype Page = Page(message: string, loading: bool, nav: Nav, calledLogin: bool)

  const Start := Page("", false, Stay, false)

  /** `handleLogin`. The delayed `window.location.href` assignment is
      modelled as the assignment itself. */
  function HandleLogin(p: Page, email: string, password: string, outcome: Outcome, check: Fetched<()>): (r: Page)
    ensures email == "" || password == "" ==> r == p.(message := FillAllFields)
    ensures email != "" && password != "" ==> r.calledLogin && !r.loading
    ensures r.nav != p.nav ==>
      outcome.Returned? && outcome.user.Some? && check.Resolved? && check.ok &&
      r.nav == Assign(Destination(outcome.user.value.role)) && r.message == Established
    ensures email != "" && password != "" && outcome.Returned? && outcome.user.Some? && check.Resolved? && check.ok ==>
      r.nav == Assign(Destination(outcome.user.value.role))
    ensures email != "" && password != "" && outcome.Returned? && outcome.user.None? ==>
      r.message == LoginFailed
    ensures email != "" && password != "" && outcome.ThrewError? ==> r.message == "❌ " + outcome.message
    ensures email != "" && password != "" && outcome == ThrewOther ==> r.message == SomethingWrong
    ensures email != "" && password != "" && outcome.Returned? && outcome.user.Some? && check.Resolved? && check.ok ==>
      r.message == Established
    ensures email != "" && password != "" && outcome.Returned? && outcome.user.Some? && check.Resolved? && !check.ok ==>
      r.message == NotEstablished && r.nav == p.nav
    ensures email != "" && password != "" && outcome.Returned? && outcome.user.Some? && check.Threw? ==>
      r.message == "❌ " + check.message && r.nav == p.nav
  {
    if email == "" || password == "" then p.(message := FillAllFields)
    else
      var q := p.(calledLogin := true, loading := false);
      match outcome
      case ThrewError(m) => q.(message := "❌ " + m)
      case ThrewOther => q.(message := SomethingWrong)
      case Returned(None) => q.(message := LoginFailed)
      case Returned(Some(u)) =>
        match check
        case Threw(m) => q.(message := "❌ " + m)
        case Resolved(ok, _) =>
          if ok then q.(message := Established, nav := Assign(Destination(u.role)))
          else q.(message := NotEstablished)
  }

  /** The page composed with the API call it awaits. `loginUser` resolves
      only with a user read from a successful probe, so the outcome the
      page sees is never a missing user and its "login failed" branch is
      dead. */
  method Submit(p: Page, email: string, password: string, login: Fetched<Api.LoginBody>,
                probe: nat -> Fetched<MeBody>, check: Fetched<()>) returns (r: Page, outcome: Option<Outcome>)
    ensures outcome.None? <==> email == "" || password == ""
    ensures outcome.None? ==> r == p.(message := FillAllFields)
    ensures outcome.Some? ==> outcome.value != ThrewOther && outcome.value != Returned(None)
    ensures outcome.Some? ==> r == HandleLogin(p, email, password, outcome.value, check)
    ensures email != "" && password != "" && login.Resolved? && !login.ok ==>
      r.message == "❌ " + OrElse(login.body.message, Api.DefaultLoginError) && r.nav == p.nav
    ensures r.nav != p.nav && r.nav == Assign(RiderDashboardPath) ==>
      exists i :: 0 <= i < Api.MaxProbes && probe(i).Resolved? && probe(i).ok &&
                  probe(i).body.user.Some? && probe(i).body.user.value.role == RiderRole
  {
    if email == "" || password == "" {
      outcome := None;
      r := p.(message := FillAllFields);
      return;
    }
    var res, made, waited := Api.LoginUser(login, probe);
    outcome := Some(FromApi(res));
    r := HandleLogin(p, email, password, outcome.value, check);
    if r.nav != p.nav && r.nav == Assign(RiderDashboardPath) {
      assert made >= 1;
      assert Api.Established(probe(made - 1));
    }
  }
}

=== FILE: logout.dfy ===
/** The four ways out of a signed-in page. They differ in what they clear,
    whether they ask the server, and when they navigate:
    `src/app/not-authorized/page.tsx`, `src/app/rider/dashboard/page.tsx`,
    `src/app/rider/Topbar.tsx` and `src/app/customer/dashboard/SideMenu.tsx`.
    `logoutUser` is not part of this model beyond clearing the in-memory
    tokens; the browser storage it leaves behind is a parameter, `after`. */
module Logout {
  import opened Common
  import TokenStore
  import UserContext
  import RiderPages

  /** The observable result of a logout handler. */
  datatype Exit = Exit(tokens: TokenStore.Tokens, browser: TokenStore.Browser, nav: Nav, requested: bool)

  /** `handleBackToLogin` on the not-authorized page: removes the two token
      keys from `localStorage` only, then pushes `/login`. */
  function BackToLogin(m: TokenStore.Tokens, b: TokenStore.Browser): (r: Exit)
    ensures r.browser.local == b.local - {TokenStore.TokenKey, TokenStore.RefreshKey}
    ensures forall k :: k != TokenStore.TokenKey && k != TokenStore.RefreshKey ==>
      TokenStore.Get(r.browser.local, k) == TokenStore.Get(b.local, k)
    ensures r.browser.session == b.session && r.tokens == m
    ensures r.nav == Push(LoginPath) && !r.requested
  {
    Exit(m, b.(local := b.local - {TokenStore.TokenKey, TokenStore.RefreshKey}), Push(LoginPath), false)
  }

  /** Because `sessionStorage` survives, the next load after going back to
      login picks up a session-stored pair if there is one. */
  lemma SessionSurvivesBackToLogin(m: TokenStore.Tokens, b: TokenStore.Browser)
    requires Truthy(TokenStore.Get(b.session, TokenStore.TokenKey))
    ensures var after := BackToLogin(m, b).browser;
      TokenStore.LoadTokensFromStorage(after, false).tokens ==
        TokenStore.Tokens(TokenStore.Get(b.session, TokenStore.TokenKey), TokenStore.Get(b.session, TokenStore.RefreshKey))
  {
  }

  /** The rider dashboard effect: it reloads tokens from storage on every
      run, then applies the rider guard. */
  function RiderDashboardEffect(m: TokenStore.Tokens, b: TokenStore.Browser, storageThrows: bool,
                                loading: bool, user: Option<UserContext.User>): (r: (TokenStore.Tokens, Nav))
    ensures r.0 == TokenStore.LoadTokensFromStorage(b, storageThrows).tokens
    ensures r.1 == RiderPages.RiderGuard(loading, user)
  {
    (TokenStore.LoadInto(m, b, storageThrows), RiderPages.RiderGuard(loading, user))
  }

  /** Rider dashboard `handleLogout`: with no token it only pushes `/login`;
      with one it posts the logout and, in `finally`, calls `logoutUser`
      (leaving storage `after`) and pushes whatever the request did. */
  function RiderDashboardLogout(m: TokenStore.Tokens, b: TokenStore.Browser, after: TokenStore.Browser,
                                res: Fetched<()>): (r: Exit)
    ensures r.nav == Push(LoginPath)
    ensures r.requested <==> Truthy(TokenStore.GetAccessToken(m))
    ensures r.requested ==> r.tokens == TokenStore.NoTokens && r.browser == after
    ensures !r.requested ==> r.tokens == m && r.browser == b
  {
    if !Truthy(TokenStore.GetAccessToken(m)) then Exit(m, b, Push(LoginPath), false)
    else Exit(TokenStore.ClearTokens(m), after, Push(LoginPath), true)
  }

  /** Rider top bar `handleLogout`: requests only with a token, never looks
      at the status, and calls `logoutUser` (leaving storage `after`) and
      pushes unless the request throws, so also when there is no token. */
  function TopbarLogout(m: TokenStore.Tokens, b: TokenStore.Browser, after: TokenStore.Browser,
                        res: Fetched<()>): (r: Exit)
    ensures r.requested <==> Truthy(TokenStore.GetAccessToken(m))
    ensures r.requested && res.Threw? ==> r.tokens == m && r.browser == b && r.nav == Stay
    ensures !(r.requested && res.Threw?) ==>
      r.tokens == TokenStore.NoTokens && r.browser == after && r.nav == Push(LoginPath)
  {
    var requested := Truthy(TokenStore.GetAccessToken(m));
    if requested && res.Threw? then Exit(m, b, Stay, true)
    else Exit(TokenStore.ClearTokens(m), after, Push(LoginPath), requested)
  }

  /** Side menu `handleLogout`: always posts, pushes `/login` only on an ok
      response, and never clears anything. */
  function SideMenuLogout(m: TokenStore.Tokens, b: TokenStore.Browser, res: Fetched<()>): (r: Exit)
    ensures r.requested && r.tokens == m && r.browser == b
    ensures r.nav == Push(LoginPath) <==> res.Resolved? && res.ok
    ensures r.nav != Push(LoginPath) ==> r.nav == Stay
  {
    Exit(m, b, if res.Resolved? && res.ok then Push(LoginPath) else Stay, true)
  }

  /** The handlers disagree: when the request throws, only the rider
      dashboard still logs out; with no token, only the top bar clears,
      the dashboard merely navigates and the side menu still asks the
      server. */
  lemma LogoutsDiffer(m: TokenStore.Tokens, b: TokenStore.Browser, after: TokenStore.Browser, msg: string)
    ensures Truthy(TokenStore.GetAccessToken(m)) ==>
      RiderDashboardLogout(m, b, after, Threw(msg)).nav == Push(LoginPath) &&
      TopbarLogout(m, b, after, Threw(msg)).nav == Stay &&
      SideMenuLogout(m, b, Threw(msg)).nav == Stay
    ensures !Truthy(TokenStore.GetAccessToken(m)) ==>
      RiderDashboardLogout(m, b, after, Threw(msg)).tokens == m &&
      TopbarLogout(m, b, after, Threw(msg)).tokens == TokenStore.NoTokens &&
      SideMenuLogout(m, b, Threw(msg)).requested
  {
  }

  /** Effects the side menu asks of its parent and the router. */
  datatype MenuEffect = Navigate(path: string) | Close

  /** The `keydown` listener: Escape closes the menu, any other key is ignored. */
  function KeyDown(key: string): (r: seq<MenuEffect>)
    ensures r == [Close] <==> key == "Escape"
    ensures r == [] <==> key != "Escape"
  {
    if key == "Escape" then [Close] else []
  }

  /** `goTo`: navigate first, then close. */
  function GoTo(path: string): (r: seq<MenuEffect>)
    ensures |r| == 2 && r[0] == Navigate(path) && r[1] == Close
  {
    [Navigate(path), Close]
  }

  /** The rider top bar's label: `name`, else `email`, else `Rider`. */
  function TopbarName(user: Option<UserContext.User>): (n: string)
    ensures user.Some? && Truthy(user.value.name) ==> n == user.value.name.value
    ensures user.Some? && !Truthy(user.value.name) && user.value.email != "" ==> n == user.value.email
    ensures user.None? || (!Truthy(user.value.name) && user.value.email == "") ==> n == "Rider"
    ensures n != ""
  {
    if user.Some? && Truthy(user.value.name) then user.value.name.value
    else if user.Some? && user.value.email != "" then user.value.email
    else "Rider"
  }
}

=== FILE: overlay.dfy ===
/** The service-status overlay of the customer layout
    (`src/app/customer/layout.tsx`). Status updates arrive over the
    socket; an online update schedules the overlay to hide two seconds
    later. Pending hide timers are counted, and a `Fire` event is one of
    them running out. */
module Overlay {
  import opened Common

  const HideDelayMs := 2000

  datatype Overlay = Overlay(online: Option<bool>, shown: bool, pendingHides: nat)

  /** The layout mounts with an unknown status and the overlay shown. */
  const Initial := Overlay(None, true, 0)

  datatype Event = Update(isOnline: bool) | Fire | Retry

  /** `serviceStatusUpdate` as written: record the status, show the overlay,
      and for an online status add a hide timer. Earlier timers are kept. */
  function OnUpdate(o: Overlay, isOnline: bool): (r: Overlay)
    ensures r.online == Some(isOnline) && r.shown
    ensures r.pendingHides == o.pendingHides + (if isOnline then 1 else 0)
  {
    Overlay(Some(isOnline), true, o.pendingHides + (if isOnline then 1 else 0))
  }

  /** A pending hide timer runs out and hides the overlay, whatever the
      status is by then. */
  function OnFire(o: Overlay): (r: Overlay)
    ensures o.pendingHides == 0 ==> r == o
    ensures o.pendingHides > 0 ==> !r.shown && r.online == o.online && r.pendingHides == o.pendingHides - 1
  {
    if o.pendingHides == 0 then o else o.(shown := false, pendingHides := o.pendingHides - 1)
  }

  /** `handleRetry` shows the overlay again and leaves the status alone. */
  function OnRetry(o: Overlay): (r: Overlay)
    ensures r.shown && r.online == o.online && r.pendingHides == o.pendingHides
  {
    o.(shown := true)
  }

  function Step(o: Overlay, e: Event): Overlay {
    match e
    case Update(b) => OnUpdate(o, b)
    case Fire => OnFire(o)
    case Retry => OnRetry(o)
  }

  function Run(o: Overlay, es: seq<Event>): Overlay
    decreases |es|
  {
    if es == [] then o else Run(Step(o, es[0]), es[1..])
  }

  /** The intended property: while the service is offline the overlay, with
      its Retry and Back to Login actions, stays on screen. */
  predicate OfflineShown(o: Overlay) {
    o.online == Some(false) ==> o.shown
  }

  /** As written, an online update followed quickly by an offline one lets
      the first update's timer hide the offline overlay. */
  lemma StaleTimerHidesOffline()
    ensures var o := Run(Initial, [Update(true), Update(false), Fire]);
      o.online == Some(false) && !o.shown && !OfflineShown(o)
  {
  }

  /** Corrected update: a new status cancels any pending hide timer before
      scheduling its own. */
  function OnUpdateCancelling(o: Overlay, isOnline: bool): (r: Overlay)
    ensures r.online == Some(isOnline) && r.shown
    ensures r.pendingHides == (if isOnline then 1 else 0)
  {
    Overlay(Some(isOnline), true, if isOnline then 1 else 0)
  }

  function StepCancelling(o: Overlay, e: Event): Overlay {
    match e
    case Update(b) => OnUpdateCancelling(o, b)
    case Fire => OnFire(o)
    case Retry => OnRetry(o)
  }

  function RunCancelling(o: Overlay, es: seq<Event>): Overlay
    decreases |es|
  {
    if es == [] then o else RunCancelling(StepCancelling(o, es[0]), es[1..])
  }

  /** The corrected machine's invariant: a pending timer exists only while
      the last status was online, and an offline status is always shown. */
  predicate Consistent(o: Overlay) {
    OfflineShown(o) && (o.pendingHides > 0 ==> o.online == Some(true)) && o.pendingHides <= 1
  }

  lemma {:induction false} CancellingKeepsOfflineShown(o: Overlay, es: seq<Event>)
    requires Consistent(o)
    ensures Consistent(RunCancelling(o, es))
    ensures OfflineShown(RunCancelling(o, es))
    decreases |es|
  {
    if es != [] {
      var o' := StepCancelling(o, es[0]);
      assert Consistent(o');
      CancellingKeepsOfflineShown(o', es[1..]);
    }
  }

  lemma CancellingFromMount(es: seq<Event>)
    ensures OfflineShown(RunCancelling(Initial, es))
  {
    CancellingKeepsOfflineShown(Initial, es);
  }

  /** What the overlay shows. */
  datatype View = Hidden | Checking | OnlineNotice | OfflineNotice(actions: seq<string>)

  function Render(o: Overlay): (v: View)
    ensures v == Hidden <==> !o.shown
    ensures o.shown && o.online.None? ==> v == Checking
    ensures o.shown && o.online == Some(true) ==> v == OnlineNotice
    ensures o.shown && o.online == Some(false) ==> v == OfflineNotice(["Retry", "Back to Login"])
  {
    if !o.shown then Hidden
    else match o.online
      case None => Checking
      case Some(b) => if b then OnlineNotice else OfflineNotice(["Retry", "Back to Login"])
  }

  /** The two buttons of the offline notice. */
  datatype Action = RetryButton | BackToLoginButton

  /** Retry re-shows the overlay without navigating; Back to Login pushes
      `/login` and leaves the overlay as it is. */
  function Press(o: Overlay, a: Action): (r: (Overlay, Nav))
    ensures a == RetryButton ==> r.0 == OnRetry(o) && r.1 == Stay
    ensures a == BackToLoginButton ==> r.0 == o && r.1 == Push(LoginPath)
    ensures r.0.online == o.online
  {
    match a
    case RetryButton => (OnRetry(o), Stay)
    case BackToLoginButton => (o, Push(LoginPath))
  }
}

=== FILE: register.dfy ===
/** The sign-up page (`src/app/register/page.tsx`): live name validation,
    the ordered submit checks, registration followed by an automatic
    login, and routing by the role inside the returned token. */
module Register {
  import opened Common
  import TokenStore

  /** `\d` without the `u` flag: the ten ASCII digits. */
  predicate IsDigit(c: char) {
    '0' <= c <= '9'
  }

  /** The Unicode class `\p{L}` is a parameter `isLetter`; the only fact the
      model relies on is that no ASCII digit is a letter. */
  predicate LetterClass(isLetter: char -> bool) {
    forall c: char :: IsDigit(c) ==> !isLetter(c)
  }

  /** `/^[\p{L} ]+$/u`: one or more letters or spaces. */
  predicate MatchesName(isLetter: char -> bool, s: string) {
    |s| > 0 && forall i :: 0 <= i < |s| ==> isLetter(s[i]) || s[i] == ' '
  }

  predicate HasDigit(s: string) {
    exists i :: 0 <= i < |s| && IsDigit(s[i])
  }

  const NumbersError := "❗ Name cannot contain numbers."
  const SymbolsError := "❗ Name must not contain symbols or special characters."

  /** Outcome of `validateName`: the returned verdict and the new `nameError`. */
  datatype NameCheck = NameCheck(valid: bool, error: string)

  function ValidateName(isLetter: char -> bool, input: string): (r: NameCheck)
    requires LetterClass(isLetter)
    ensures r.valid <==> r.error == ""
    ensures r.valid <==> input == "" || MatchesName(isLetter, input)
    ensures !r.valid ==> (r.error == NumbersError <==> HasDigit(input))
    ensures !r.valid ==> (r.error == SymbolsError <==> !HasDigit(input))
    ensures r.valid ==> !HasDigit(input)
  {
    if input == "" then NameCheck(true, "")
    else if !MatchesName(isLetter, input) then
      if HasDigit(input) then NameCheck(false, NumbersError) else NameCheck(false, SymbolsError)
    else
      assert !HasDigit(input) by {
        forall i | 0 <= i < |input| ensures !IsDigit(input[i]) {
          assert isLetter(input[i]) || input[i] == ' ';
        }
      }
      NameCheck(true, "")
  }

  datatype RegisterBody = RegisterBody(message: Option<string>)
  datatype TokenBody = TokenBody(token: Option<string>)

  /** State of the sign-up page. `requests` counts the requests a submit made. */
  datatype Page = Page(name: string, nameError: string, message: string, loading: bool,
                       nav: Nav, local: TokenStore.Store, requests: nat)

  function Start(local: TokenStore.Store): Page {
    Page("", "", "", false, Stay, local, 0)
  }

  /** `handleNameChange`: the name field only ever takes values that pass
      validation; the error line always reflects the last keystroke. */
  function HandleNameChange(isLetter: char -> bool, p: Page, value: string): (r: Page)
    requires LetterClass(isLetter)
    ensures r.nameError == ValidateName(isLetter, value).error
    ensures r.name == (if ValidateName(isLetter, value).valid then value else p.name)
    ensures r.message == p.message && r.nav == p.nav && r.local == p.local
  {
    var c := ValidateName(isLetter, value);
    p.(nameError := c.error, name := if c.valid then value else p.name)
  }

  /** The name field holds a valid name. */
  predicate NameInvariant(isLetter: char -> bool, p: Page)
    requires LetterClass(isLetter)
  {
    ValidateName(isLetter, p.name).valid
  }

  lemma NameInvariantHolds(isLetter: char -> bool, p: Page, value: string, local: TokenStore.Store)
    requires LetterClass(isLetter)
    ensures NameInvariant(isLetter, Start(local))
    ensures NameInvariant(isLetter, p) ==> NameInvariant(isLetter, HandleNameChange(isLetter, p, value))
  {
  }

  const AllRequired := "❗ All fields are required."
  const InvalidName := "❗ Invalid name format."
  const PasswordsDiffer := "❗ Passwords don't match."
  const DefaultRegisterError := "Registration failed."
  const LoginManually := "✅ Account created, but login failed. Please login manually."
  const SomethingWrong := "❗ Something went wrong. Try again."
  const LoggingIn := "✅ Account created! Logging in..."

  /** Where a freshly registered user lands: by the decoded `role`. */
  function RoleHome(role: Option<string>): (path: string)
    ensures role == Some(CustomerRole) ==> path == CustomerDashboardPath
    ensures role == Some(RiderRole) ==> path == RiderDashboardPath
    ensures role != Some(CustomerRole) && role != Some(RiderRole) ==> path == RootPath
  {
    if role == Some(CustomerRole) then CustomerDashboardPath
    else if role == Some(RiderRole) then RiderDashboardPath
    else RootPath
  }

  /** `handleRegister`. The checks run in order (missing field, invalid name,
      mismatched passwords) and stop the submit before any request. The
      delayed push to `/login` is modelled as the push itself. */
  function HandleRegister(isLetter: char -> bool, p: Page, email: string, password: string, confirm: string,
                          reg: Fetched<RegisterBody>, login: Fetched<TokenBody>, decoded: Decoded): (r: Page)
    requires LetterClass(isLetter)
    ensures r.name == p.name
    ensures p.name == "" || email == "" || password == "" || confirm == "" ==>
      r == p.(message := AllRequired, requests := 0)
    ensures r.requests == 0 ==> r.local == p.local && r.nav == p.nav && r.loading == p.loading
    ensures r.requests > 0 <==>
      p.name != "" && email != "" && password != "" && confirm != "" &&
      ValidateName(isLetter, p.name).valid && password == confirm
    ensures r.requests > 0 ==> !r.loading
    ensures r.requests == 2 <==> r.requests > 0 && reg.Resolved? && reg.ok
    ensures r.local != p.local ==>
      login.Resolved? && login.ok && Truthy(login.body.token) && r.local == p.local[TokenStore.TokenKey := login.body.token.value]
    ensures r.nav != p.nav ==>
      (r.requests == 2 && login.Resolved? &&
       if login.ok && Truthy(login.body.token)
       then decoded.Claims? && r.nav == Push(RoleHome(decoded.role))
       else r.nav == Push(LoginPath) && r.message == LoginManually)
    ensures r.message == InvalidName <==>
      p.name != "" && email != "" && password != "" && confirm != "" && !ValidateName(isLetter, p.name).valid
    ensures r.requests == 1 ==> r.local == p.local && r.nav == p.nav
    ensures r.requests == 1 && reg.Threw? ==> r.message == SomethingWrong
    ensures r.requests == 1 && reg.Resolved? ==> r.message == "❌ " + OrElse(reg.body.message, DefaultRegisterError)
    ensures r.requests == 2 && login.Threw? ==>
      r.local == p.local && r.nav == p.nav && r.message == SomethingWrong
    ensures r.requests == 2 && login.Resolved? && !(login.ok && Truthy(login.body.token)) ==>
      r.local == p.local && r.nav == Push(LoginPath) && r.message == LoginManually
    ensures r.requests == 2 && login.Resolved? && login.ok && Truthy(login.body.token) ==>
      r.local == p.local[TokenStore.TokenKey := login.body.token.value] &&
      (decoded.Claims? ==> r.nav == Push(RoleHome(decoded.role)) && r.message == LoggingIn) &&
      (decoded.Undecodable? ==> r.nav == p.nav && r.message == SomethingWrong)
  {
    if p.name == "" || email == "" || password == "" || confirm == "" then
      p.(message := AllRequired, requests := 0)
    else
      var c := ValidateName(isLetter, p.name);
      if !c.valid then p.(nameError := c.error, message := InvalidName, requests := 0)
      else if password != confirm then p.(nameError := "", message := PasswordsDiffer, requests := 0)
      else
        var q := p.(nameError := "", loading := false, requests := 1);
        match reg
        case Threw(_) => q.(message := SomethingWrong)
        case Resolved(ok, body) =>
          if !ok then
            var m := "❌ " + OrElse(body.message, DefaultRegisterError);
            assert m[0] != InvalidName[0];
            q.(message := m)
          else
            var q2 := q.(requests := 2, message := LoggingIn);
            match login
            case Threw(_) => q2.(message := SomethingWrong)
            case Resolved(lok, lbody) =>
              if !lok || !Truthy(lbody.token) then q2.(message := LoginManually, nav := Push(LoginPath))
              else
                var stored := q2.(local := p.local[TokenStore.TokenKey := lbody.token.value]);
                match decoded
                case Undecodable => stored.(message := SomethingWrong)
                case Claims(role) => stored.(nav := Push(RoleHome(role)))
  }

  /** Because the name field only ever holds a valid name, the
      "invalid name format" message can never be shown. */
  lemma InvalidNameUnreachable(isLetter: char -> bool, p: Page, email: string, password: string, confirm: string,
                               reg: Fetched<RegisterBody>, login: Fetched<TokenBody>, decoded: Decoded)
    requires LetterClass(isLetter)
    requires NameInvariant(isLetter, p)
    ensures HandleRegister(isLetter, p, email, password, confirm, reg, login, decoded).message != InvalidName
  {
  }

  /** Registration writes the token to `localStorage` only, and only after
      a login that returned one; a failed registration never logs in. */
  lemma TokenOnlyAfterLogin(isLetter: char -> bool, p: Page, email: string, password: string, confirm: string,
                            reg: Fetched<RegisterBody>, login: Fetched<TokenBody>, decoded: Decoded)
    requires LetterClass(isLetter)
    requires !(reg.Resolved? && reg.ok)
    ensures HandleRegister(isLetter, p, email, password, confirm, reg, login, decoded).local == p.local
    ensures HandleRegister(isLetter, p, email, password, confirm, reg, login, decoded).nav == p.nav
  {
  }
}

=== FILE: rider_pages.dfy ===
/** The rider pages: active bookings (`src/app/rider/active-bookings`),
    available bookings (`src/app/rider/available`), history
    (`src/app/rider/history`) and the rider-only guard they share. */
module RiderPages {
  import opened Common
  import opened TokenStore
  import opened Booking
  import UserContext

  /** The guard effect: once the context has loaded, anyone but a rider is
      sent to `/login`. */
  function RiderGuard(loading: bool, user: Option<UserContext.User>): (n: Nav)
    ensures n == Stay || n == Replace(LoginPath)
    ensures n != Stay <==> !loading && (user.None? || user.value.role != RiderRole)
  {
    if !loading && (user.None? || user.value.role != RiderRole) then Replace(LoginPath) else Stay
  }

  /** What a rider page renders. */
  datatype View = Loading | Nothing | Page

  function RiderRender(loading: bool, user: Option<UserContext.User>): (v: View)
    ensures v == Page ==> !loading && user.Some? && user.value.role == RiderRole
    ensures loading <==> v == Loading
  {
    if loading then Loading
    else if user.None? || user.value.role != RiderRole then Nothing
    else Page
  }

  /** The guard redirects exactly when the page renders nothing, so a
      missing or non-rider user never sees the page. */
  lemma GuardAgreesWithRender(loading: bool, user: Option<UserContext.User>)
    ensures RiderGuard(loading, user) == Replace(LoginPath) <==> RiderRender(loading, user) == Nothing
    ensures RiderRender(loading, user) == Page ==> RiderGuard(loading, user) == Stay
  {
  }

  /** A status change request `PUT /tasks/:id { status }`. */
  datatype StatusChange = StatusChange(id: string, status: Status)

  /** A body carrying `tasks`, possibly absent (`data.tasks || []`). */
  datatype TasksBody = TasksBody(tasks: Option<seq<Task>>)

  function TasksOrEmpty(b: TasksBody): seq<Task> {
    if b.tasks.Some? then b.tasks.value else []
  }

  /** The list part of a rider page and what a handler did. */
  datatype Effect = Effect(tasks: seq<Task>, loadingTasks: bool, nav: Nav,
                           sent: Option<StatusChange>, alerted: bool)

  /** Active bookings `fetchTasks`: a non-ok response or an exception keeps
      the list; the `finally` always ends loading. */
  function ActiveFetch(tasks: seq<Task>, res: Fetched<TasksBody>): (r: Effect)
    ensures !r.loadingTasks && r.nav == Stay && r.sent.None?
    ensures res.Resolved? && res.ok ==> r.tasks == TasksOrEmpty(res.body)
    ensures !(res.Resolved? && res.ok) ==> r.tasks == tasks
  {
    var next := if res.Resolved? && res.ok then TasksOrEmpty(res.body) else tasks;
    Effect(next, false, Stay, None, false)
  }

  /** The body of a status update response: the status in `data.task.status`.
      A body without `task` is not modelled: the page reads it inside the
      `setTasks` updater, which runs while rendering, outside the handler's
      `catch`. */
  datatype UpdateBody = UpdateBody(task: KnownStatus)

  /** Active bookings `updateStatus(id, target)`. On an ok response the task
      with that id takes the status the SERVER returned; a non-ok response or
      an exception keeps the list. */
  function UpdateStatus(tasks: seq<Task>, id: string, target: Status, res: Fetched<UpdateBody>): (r: Effect)
    requires target in RiderTargets
    ensures r.sent == Some(StatusChange(id, target))
    ensures |r.tasks| == |tasks|
    ensures forall i :: 0 <= i < |tasks| ==> r.tasks[i].id == tasks[i].id
    ensures forall i :: 0 <= i < |tasks| && tasks[i].id != id ==> r.tasks[i] == tasks[i]
    ensures res.Resolved? && res.ok ==>
      forall i :: 0 <= i < |tasks| && tasks[i].id == id ==>
        r.tasks[i] == tasks[i].(status := res.body.task)
    ensures !(res.Resolved? && res.ok) ==> r.tasks == tasks
  {
    var next := if res.Resolved? && res.ok then SetStatusById(tasks, id, res.body.task) else tasks;
    Effect(next, false, Stay, Some(StatusChange(id, target)), false)
  }

  /** Every button on an active-bookings card sends a status `updateStatus`
      accepts, and one the lifecycle allows from the card's status. */
  lemma CardButtonsAreValidUpdates(t: Task, target: Status)
    requires target in RiderOffers(t.status)
    ensures target in RiderTargets && Step(t.status, target)
  {
  }

  /** Available bookings `fetchTasks`: without an access token nothing is
      requested and the route is replaced by `/login` (returning before the
      `try`, so loading is never ended); otherwise the list becomes
      `data.tasks || []` whatever the status. */
  function AvailableFetch(m: Tokens, tasks: seq<Task>, loadingTasks: bool, res: Fetched<TasksBody>): (r: Effect)
    ensures !Truthy(GetAccessToken(m)) ==>
      r == Effect(tasks, loadingTasks, Replace(LoginPath), None, false)
    ensures Truthy(GetAccessToken(m)) ==> r.nav == Stay && !r.loadingTasks
    ensures Truthy(GetAccessToken(m)) && res.Resolved? ==> r.tasks == TasksOrEmpty(res.body)
    ensures res.Threw? ==> r.tasks == tasks
  {
    if !Truthy(GetAccessToken(m)) then Effect(tasks, loadingTasks, Replace(LoginPath), None, false)
    else
      var next := if res.Resolved? then TasksOrEmpty(res.body) else tasks;
      Effect(next, false, Stay, None, false)
  }

  /** The two loaders differ only in the status check: with a token, an ok
      response gives both the same list and ends loading, while a non-ok one
      keeps the list on active bookings and replaces it on available
      bookings with `data.tasks || []`. */
  lemma ActiveAndAvailableFetchDiffer(m: Tokens, tasks: seq<Task>, loadingTasks: bool, body: TasksBody)
    requires Truthy(GetAccessToken(m))
    ensures ActiveFetch(tasks, Resolved(true, body)) == AvailableFetch(m, tasks, loadingTasks, Resolved(true, body))
    ensures ActiveFetch(tasks, Resolved(false, body)).tasks == tasks
    ensures AvailableFetch(m, tasks, loadingTasks, Resolved(false, body)).tasks == TasksOrEmpty(body)
  {
  }

  /** Available bookings `handleAcceptTask(id)`: always asks for `accepted`;
      only an ok response removes the task, in place. */
  function AcceptTask(m: Tokens, tasks: seq<Task>, loadingTasks: bool, id: string, res: Fetched<()>): (r: Effect)
    ensures r.loadingTasks == loadingTasks
    ensures !Truthy(GetAccessToken(m)) ==> r.sent.None? && r.nav == Replace(LoginPath) && r.tasks == tasks
    ensures Truthy(GetAccessToken(m)) ==> r.sent == Some(StatusChange(id, Accepted)) && r.nav == Stay
    ensures Truthy(GetAccessToken(m)) && res.Resolved? && res.ok ==>
      (forall t :: t in r.tasks <==> t in tasks && t.id != id) && !r.alerted
    ensures !(Truthy(GetAccessToken(m)) && res.Resolved? && res.ok) ==> r.tasks == tasks
    ensures r.alerted <==> Truthy(GetAccessToken(m)) && !(res.Resolved? && res.ok)
  {
    if !Truthy(GetAccessToken(m)) then Effect(tasks, loadingTasks, Replace(LoginPath), None, false)
    else if res.Resolved? && res.ok then
      Effect(RemoveById(tasks, id), loadingTasks, Stay, Some(StatusChange(id, Accepted)), false)
    else Effect(tasks, loadingTasks, Stay, Some(StatusChange(id, Accepted)), true)
  }

  /** Accepting the same booking twice removes it once. */
  lemma AcceptTwiceIsAcceptOnce(m: Tokens, tasks: seq<Task>, id: string)
    requires Truthy(GetAccessToken(m))
    ensures var once := AcceptTask(m, tasks, false, id, Resolved(true, ()));
            AcceptTask(m, once.tasks, false, id, Resolved(true, ())).tasks == once.tasks
  {
    var once := AcceptTask(m, tasks, false, id, Resolved(true, ()));
    RemoveByIdCounts(once.tasks, id);
  }

  /** The JSON body of `GET /tasks/history`: a list, a falsy value (`null`),
      or any other truthy value, such as the `{ message }` object the server
      answers errors with. */
  datatype HistoryBody = ListBody(tasks: seq<Task>) | Falsy | NotAListBody

  /** What the history page holds in `tasks`: a list, or a value that is not
      one because `setTasks(data || [])` stored a non-list body as it is. */
  datatype HistoryList = Listed(tasks: seq<Task>) | NotAList

  /** Rider history `fetchTasks`: `tasks` becomes `data || []` whatever the
      status, so a non-list body is stored too. An exception keeps it. */
  function HistoryFetch(held: HistoryList, res: Fetched<HistoryBody>): (r: HistoryList)
    ensures res.Threw? ==> r == held
    ensures res.Resolved? && res.body.ListBody? ==> r == Listed(res.body.tasks)
    ensures res.Resolved? && res.body.Falsy? ==> r == Listed([])
    ensures res.Resolved? && res.body.NotAListBody? ==> r == NotAList
  {
    match res
    case Threw(_) => held
    case Resolved(_, ListBody(ts)) => Listed(ts)
    case Resolved(_, Falsy) => Listed([])
    case Resolved(_, NotAListBody) => NotAList
  }

  /** What rendering the history page does. */
  datatype HistoryScreen = RenderThrows | Rendered(view: View, shown: seq<Task>)

  /** Rendering computes `tasks.filter(...)` before either gate, so a stored
      non-list throws whatever the loading state and the user; otherwise the
      rider gates decide and the active tab's tasks are listed. */
  function HistoryRender(held: HistoryList, tab: Tab, loading: bool, user: Option<UserContext.User>): (s: HistoryScreen)
    ensures s.RenderThrows? <==> held.NotAList?
    ensures held.Listed? ==> s.view == RiderRender(loading, user)
    ensures held.Listed? ==> forall t :: t in s.shown <==> t in held.tasks && t.status == TabStatus(tab)
  {
    match held
    case NotAList => RenderThrows
    case Listed(ts) => Rendered(RiderRender(loading, user), HistoryView(ts, tab))
  }

  /** The rider history never checks the status: an error response is stored
      like a success, so a list body is shown and what a tab shows depends
      only on the body. */
  lemma HistoryIgnoresStatus(held: HistoryList, body: HistoryBody, tab: Tab)
    ensures HistoryFetch(held, Resolved(false, body)) == HistoryFetch(held, Resolved(true, body))
    ensures body.ListBody? ==> forall t :: t in HistoryView(HistoryFetch(held, Resolved(false, body)).tasks, tab) ==>
      t in body.tasks && t.status == TabStatus(tab)
  {
  }

  /** An error response whose body is an object, the server's usual error
      shape, breaks the next render of the page, even while the user context
      is still loading. */
  lemma ErrorObjectBreaksHistory(held: HistoryList, tab: Tab, loading: bool, user: Option<UserContext.User>)
    ensures HistoryRender(HistoryFetch(held, Resolved(false, NotAListBody)), tab, loading, user).RenderThrows?
  {
  }
}

=== FILE: routing.dfy ===
/** Role-based routing shared by the entry points: the root redirect
    (`src/app/page.tsx`), the navigation bar (`src/components/Navbar.tsx`)
    and the `ProtectedRoute` gate (`src/components/ProtectedRoute.tsx`). */
module Routing {
  import opened Common
  import TokenStore
  import Api
  import UserContext
  import Login
  import Register

  /** `redirectUser` on the root page. `getCurrentUser` catches its own
      failures, so every run ends in exactly one `replace`. */
  function HomeRedirect(me: Fetched<MeBody>): (nav: Nav)
    ensures nav.Replace?
    ensures var u := Api.GetCurrentUser(me);
      (nav == Replace(RiderDashboardPath) <==> u.Some? && u.value.role == RiderRole) &&
      (nav == Replace(CustomerDashboardPath) <==> u.Some? && u.value.role == CustomerRole) &&
      (nav == Replace(LoginPath) <==> u.None? || (u.value.role != RiderRole && u.value.role != CustomerRole))
  {
    var u := Api.GetCurrentUser(me);
    if u.Some? && u.value.role == RiderRole then Replace(RiderDashboardPath)
    else if u.Some? && u.value.role == CustomerRole then Replace(CustomerDashboardPath)
    else Replace(LoginPath)
  }

  /** The three places that route by role agree on riders and customers,
      and differ on every other role: the root page sends it to `/login`,
      the login page to the customer dashboard, sign-up to `/`. */
  lemma RoleRoutingAgrees(role: string, id: string, email: string, name: Option<string>)
    ensures var me := Resolved(true, MeBody(Some(RawUser(id, email, name, role))));
      (role == RiderRole || role == CustomerRole) ==>
        HomeRedirect(me).path == Login.Destination(role) == Register.RoleHome(Some(role))
    ensures var me := Resolved(true, MeBody(Some(RawUser(id, email, name, role))));
      (role != RiderRole && role != CustomerRole) ==>
        HomeRedirect(me).path == LoginPath && Login.Destination(role) == CustomerDashboardPath &&
        Register.RoleHome(Some(role)) == RootPath
  {
  }

  /** The user the navigation bar displays: `name` is dropped and the id is
      converted by `parseInt`, which stays an abstract function here. */
  datatype NavUser = NavUser(id: int, email: string, role: string)

  function NavbarUser(parseId: string -> int, u: Option<RawUser>): (r: Option<NavUser>)
    ensures r.Some? <==> u.Some? && (u.value.role == RiderRole || u.value.role == CustomerRole)
    ensures r.Some? ==> r.value == NavUser(parseId(u.value.id), u.value.email, u.value.role)
  {
    if u.Some? && (u.value.role == RiderRole || u.value.role == CustomerRole) then
      Some(NavUser(parseId(u.value.id), u.value.email, u.value.role))
    else None
  }

  /** Two users that differ only in `name` display identically. */
  lemma NavbarIgnoresName(parseId: string -> int, u: RawUser, name: Option<string>)
    ensures NavbarUser(parseId, Some(u.(name := name))) == NavbarUser(parseId, Some(u))
  {
  }

  /** The logout button is present exactly when a user is displayed. */
  predicate LogoutShown(shown: Option<NavUser>) {
    shown.Some?
  }

  /** `handleLogout`: `logoutUser` is not part of this model beyond clearing
      the in-memory tokens; the route then becomes `/login`. */
  function NavbarLogout(m: TokenStore.Tokens): (r: (TokenStore.Tokens, Nav))
    ensures TokenStore.GetAccessToken(r.0).None? && TokenStore.GetRefreshToken(r.0).None?
    ensures r.1 == Push(LoginPath)
  {
    (TokenStore.ClearTokens(m), Push(LoginPath))
  }

  /** `ProtectedRoute`'s effect: replace with `/login` once loading is over
      and no user is set. */
  function GuardEffect(loading: bool, user: Option<UserContext.User>): (nav: Nav)
    ensures nav != Stay <==> !loading && user.None?
    ensures nav != Stay ==> nav == Replace(LoginPath)
  {
    if !loading && user.None? then Replace(LoginPath) else Stay
  }

  datatype Gate = Placeholder | Children

  function GuardRender(loading: bool, user: Option<UserContext.User>): (g: Gate)
    ensures g == Children <==> !loading && user.Some?
  {
    if loading || user.None? then Placeholder else Children
  }

  /** The gate never redirects while loading, never shows the children of
      a page it is leaving, and admits a user of any role. */
  lemma GuardIsConsistent(loading: bool, user: Option<UserContext.User>, u: UserContext.User)
    ensures loading ==> GuardEffect(loading, user) == Stay && GuardRender(loading, user) == Placeholder
    ensures GuardEffect(loading, user) != Stay ==> GuardRender(loading, user) == Placeholder
    ensures GuardRender(loading, user) == Placeholder && !loading ==> GuardEffect(loading, user) == Replace(LoginPath)
    ensures GuardRender(false, Some(u)) == Children && GuardEffect(false, Some(u)) == Stay
  {
  }

  /** After the session bootstrap, the gate either renders the children or
      sends the browser to `/login`; it is never stuck on the placeholder. */
  lemma GuardAfterInit(s: UserContext.Session, b: TokenStore.Browser, storageThrows: bool, me: Fetched<MeBody>)
    ensures var r := UserContext.Init(s, b, storageThrows, me).session;
      GuardRender(r.loading, r.user) == Children || GuardEffect(r.loading, r.user) == Replace(LoginPath)
  {
  }
}

=== FILE: seqs.dfy ===
/** Order-preserving filtering of sequences, the `Array.prototype.filter`
    every list page uses, with the facts the pages rely on. */
module Seqs {

  /** The elements of `s` that satisfy `p`, in their original order. */
  function Filter<T(!new)>(s: seq<T>, p: T -> bool): (r: seq<T>)
    ensures |r| <= |s|
    ensures forall x :: x in r <==> x in s && p(x)
    ensures forall i :: 0 <= i < |r| ==> p(r[i])
  {
    if |s| == 0 then []
    else (if p(s[0]) then [s[0]] else []) + Filter(s[1..], p)
  }

  /** Filtering distributes over concatenation: kept elements stay in the
      order they had, block by block. */
  lemma {:induction false} FilterAppend<T(!new)>(a: seq<T>, b: seq<T>, p: T -> bool)
    ensures Filter(a + b, p) == Filter(a, p) + Filter(b, p)
    decreases |a|
  {
    if |a| == 0 {
      assert a + b == b;
    } else {
      assert (a + b)[0] == a[0];
      assert (a + b)[1..] == a[1..] + b;
      FilterAppend(a[1..], b, p);
    }
  }

  /** Every element is kept by exactly one of `p` and its negation. */
  lemma {:induction false} FilterPartition<T(!new)>(s: seq<T>, p: T -> bool, q: T -> bool)
    requires forall x :: q(x) == !p(x)
    ensures |Filter(s, p)| + |Filter(s, q)| == |s|
    decreases |s|
  {
    if |s| > 0 {
      FilterPartition(s[1..], p, q);
    }
  }

  /** Filtering twice is filtering once by the conjunction. */
  lemma {:induction false} FilterFilter<T(!new)>(s: seq<T>, p: T -> bool, q: T -> bool, pq: T -> bool)
    requires forall x :: pq(x) == (p(x) && q(x))
    ensures Filter(Filter(s, p), q) == Filter(s, pq)
    decreases |s|
  {
    if |s| > 0 {
      FilterFilter(s[1..], p, q, pq);
      var head := if p(s[0]) then [s[0]] else [];
      FilterAppend(head, Filter(s[1..], p), q);
    }
  }

  /** A filter that every element passes changes nothing. */
  lemma {:induction false} FilterKeepsAll<T(!new)>(s: seq<T>, p: T -> bool)
    requires forall i :: 0 <= i < |s| ==> p(s[i])
    ensures Filter(s, p) == s
    decreases |s|
  {
    if |s| > 0 {
      FilterKeepsAll(s[1..], p);
    }
  }
}

=== FILE: slides.dfy ===
/** The two slide carousels: the how-to-use page
    (`src/app/customer/help/how-to-use/page.tsx`, seven slides) and the
    dashboard tutorial (`src/app/customer/dashboard/TutorialModal.tsx`,
    nine slides, with a zoomable full-screen preview). */
module Slides {
  import opened Common

  const HowToUseCount := 7
  const TutorialCount := 9
  /** Horizontal travel, in pixels, that counts as a swipe. */
  const SwipeThreshold: real := 50.0

  predicate InRange(count: nat, i: int) {
    0 <= i < count
  }

  /** `goNext`: advance unless on the last slide. */
  function GoNext(count: nat, i: int): (r: int)
    ensures i < count - 1 ==> r == i + 1
    ensures i >= count - 1 ==> r == i
    ensures InRange(count, i) ==> InRange(count, r)
  {
    if i < count - 1 then i + 1 else i
  }

  /** `goBack`: step back unless on the first slide. */
  function GoBack(i: int): (r: int)
    ensures i > 0 ==> r == i - 1
    ensures i <= 0 ==> r == i
    ensures forall count: nat :: InRange(count, i) ==> InRange(count, r)
  {
    if i > 0 then i - 1 else i
  }

  /** How-to-use `handleTouchEnd`: `diff = start - end`; a leftward swipe
      beyond the threshold advances, a rightward one goes back. The start
      position is kept from the last touch start (initially 0). */
  function HowToUseTouchEnd(i: int, start: real, end: real): (r: int)
    ensures start - end > SwipeThreshold ==> r == GoNext(HowToUseCount, i)
    ensures end - start > SwipeThreshold ==> r == GoBack(i)
    ensures -SwipeThreshold <= start - end <= SwipeThreshold ==> r == i
  {
    var diff := start - end;
    var afterNext := if diff > SwipeThreshold then GoNext(HowToUseCount, i) else i;
    if diff < -SwipeThreshold then GoBack(afterNext) else afterNext
  }

  /** Tutorial touch state: the slide and the recorded start, if any. */
  datatype Touch = Touch(index: int, start: Option<real>)

  function TutorialTouchStart(t: Touch, x: real): (r: Touch)
    ensures r.index == t.index && r.start == Some(x)
  {
    t.(start := Some(x))
  }

  /** Tutorial `handleTouchEnd`: `delta = end - start`, the opposite sign
      convention to the how-to-use page, with the branches swapped to
      match. A touch end with no recorded start is ignored; a handled one
      forgets the start. */
  function TutorialTouchEnd(t: Touch, end: real): (r: Touch)
    ensures t.start.None? ==> r == t
    ensures t.start.Some? ==> r.start.None?
    ensures t.start.Some? && end - t.start.value > SwipeThreshold ==> r.index == GoBack(t.index)
    ensures t.start.Some? && end - t.start.value < -SwipeThreshold ==> r.index == GoNext(TutorialCount, t.index)
    ensures t.start.Some? && -SwipeThreshold <= end - t.start.value <= SwipeThreshold ==> r.index == t.index
  {
    match t.start
    case None => t
    case Some(s) =>
      var delta := end - s;
      var afterBack := if delta > SwipeThreshold then GoBack(t.index) else t.index;
      var afterNext := if delta < -SwipeThreshold then GoNext(TutorialCount, afterBack) else afterBack;
      Touch(afterNext, None)
  }

  /** Despite the opposite sign conventions, the same gesture moves both
      carousels the same way: a leftward swipe advances, a rightward one
      goes back. */
  lemma SwipeDirectionsAgree(i: int, start: real, end: real)
    ensures HowToUseCount <= TutorialCount
    ensures i < HowToUseCount - 1 ==>
      HowToUseTouchEnd(i, start, end) == TutorialTouchEnd(Touch(i, Some(start)), end).index
  {
  }

  /** One user gesture on the tutorial. */
  datatype Gesture = Next | Back | TouchStart(x: real) | TouchEnd(x: real)

  function Apply(t: Touch, g: Gesture): Touch {
    match g
    case Next => t.(index := GoNext(TutorialCount, t.index))
    case Back => t.(index := GoBack(t.index))
    case TouchStart(x) => TutorialTouchStart(t, x)
    case TouchEnd(x) => TutorialTouchEnd(t, x)
  }

  function Run(t: Touch, gs: seq<Gesture>): Touch
    decreases |gs|
  {
    if gs == [] then t else Run(Apply(t, gs[0]), gs[1..])
  }

  /** From the first slide, no sequence of gestures leaves the nine slides. */
  lemma {:induction false} RunStaysInRange(t: Touch, gs: seq<Gesture>)
    requires InRange(TutorialCount, t.index)
    ensures InRange(TutorialCount, Run(t, gs).index)
    decreases |gs|
  {
    if gs != [] {
      var t' := Apply(t, gs[0]);
      assert InRange(TutorialCount, t'.index);
      RunStaysInRange(t', gs[1..]);
    }
  }

  const MinZoom: real := 1.0
  const MaxZoom: real := 3.0

  /** `handleWheel`: zoom out by a thousandth of the wheel delta, clamped to
      the zoom range. Exact reals stand in for the source's floating point. */
  function Wheel(z: real, deltaY: real): (r: real)
    ensures MinZoom <= r <= MaxZoom
    ensures MinZoom <= z - deltaY / 1000.0 <= MaxZoom ==> r == z - deltaY / 1000.0
    ensures z - deltaY / 1000.0 < MinZoom ==> r == MinZoom
    ensures z - deltaY / 1000.0 > MaxZoom ==> r == MaxZoom
  {
    var target := z - deltaY / 1000.0;
    if target < MinZoom then MinZoom else if target > MaxZoom then MaxZoom else target
  }

  /** Full-screen preview state. */
  datatype Preview = Preview(open: bool, zoom: real)

  /** Clicking the preview resets the zoom; closing it also resets it. */
  function ResetZoom(p: Preview): (r: Preview)
    ensures r.zoom == MinZoom && r.open == p.open
  {
    p.(zoom := MinZoom)
  }

  function ClosePreview(p: Preview): (r: Preview)
    ensures !r.open && r.zoom == MinZoom
  {
    Preview(false, MinZoom)
  }

  /** A run of wheel events: zoom never leaves the range once inside it. */
  function WheelAll(z: real, deltas: seq<real>): (r: real)
    ensures |deltas| > 0 || MinZoom <= z <= MaxZoom ==> MinZoom <= r <= MaxZoom
    ensures deltas == [] ==> r == z
    decreases |deltas|
  {
    if deltas == [] then z else WheelAll(Wheel(z, deltas[0]), deltas[1..])
  }
}

=== FILE: socket.dfy ===
/** The module-level socket singleton of `src/lib/socket.ts`. Whether the
    transport is connected is decided outside the client, so `connected` is
    an input the environment sets. */
module Socket {
  import opened Common
  import opened TokenStore

  /** A socket: the creation number that identifies it, the token it was
      opened with, and the transport's `connected` flag. */
  datatype Sock = Sock(serial: nat, token: Option<string>, connected: bool)

  /** The `socket` variable and how many sockets have been created so far. */
  datatype Singleton = Singleton(current: Option<Sock>, created: nat)

  const Start := Singleton(None, 0)

  /** `getSocket()`. */
  function GetSocket(st: Singleton): Option<Sock> { st.current }

  /** `connectSocket()`: a new socket is opened with the access token read
      now, unless a connected one exists, which is returned as it is. */
  function ConnectSocket(st: Singleton, m: Tokens): (r: (Singleton, Sock))
    // after connecting, getSocket returns the socket just handed out
    ensures GetSocket(r.0) == Some(r.1)
    // reuse exactly when the current socket is connected
    ensures st.current.Some? && st.current.value.connected ==> r.0 == st && r.1 == st.current.value
    ensures st.current.None? || !st.current.value.connected ==>
      r.1.serial == st.created && r.0.created == st.created + 1 &&
      r.1.token == GetAccessToken(m) && !r.1.connected
  {
    if st.current.Some? && st.current.value.connected then (st, st.current.value)
    else
      var s := Sock(st.created, GetAccessToken(m), false);
      (Singleton(Some(s), st.created + 1), s)
  }

  /** The transport finished connecting (the `connect` event). */
  function TransportConnected(st: Singleton): (r: Singleton)
    ensures r.created == st.created
    ensures r.current.Some? <==> st.current.Some?
    ensures r.current.Some? ==>
      r.current.value.connected &&
      r.current.value.serial == st.current.value.serial &&
      r.current.value.token == st.current.value.token
  {
    if st.current.Some? then st.(current := Some(st.current.value.(connected := true))) else st
  }

  /** `disconnectSocket()`. */
  function DisconnectSocket(st: Singleton): (r: Singleton)
    ensures GetSocket(r).None?
    ensures st.current.None? ==> r == st
    ensures r.created == st.created
  {
    if st.current.Some? then st.(current := None) else st
  }

  /** A connected socket keeps the token it was opened with, whatever the
      token store holds when `connectSocket` is called again. */
  lemma ReusedSocketKeepsOldToken(st: Singleton, m: Tokens)
    requires st.current.Some? && st.current.value.connected
    ensures ConnectSocket(st, m).1.token == st.current.value.token
  {
  }

  /** Connecting twice in a row without the transport connecting in between
      opens a second socket; once it has connected, the second call reuses it. */
  lemma ConnectTwice(st: Singleton, m: Tokens)
    ensures var (s1, a) := ConnectSocket(st, m);
            var (s2, b) := ConnectSocket(TransportConnected(s1), m);
            b.serial == a.serial && s2.created == s1.created
    ensures var (s1, a) := ConnectSocket(st, m);
            var (s2, b) := ConnectSocket(s1, m);
            (s1 == st ==> s2 == s1) && (s1 != st ==> b.serial == a.serial + 1)
  {
  }
}

=== FILE: task_booking.dfy ===
/** The customer's task-booking form (`src/app/customer/task/page.tsx`):
    its role guard, submit validation, confirmation and payload. */
module TaskBooking {
  import opened Common
  import Booking

  datatype Form = Form(name: string, task: string, pickup: string, dropoff: string,
                       datetime: string, notes: string)

  const EmptyForm := Form("", "", "", "", "", "")

  datatype Schedule = Asap | Custom

  const FillAllFields := "Please fill out all required fields."
  const BookedToast := "✅ Task booked successfully!"
  const SubmitFailedToast := "❌ Failed to submit task. Please try again."
  const DefaultServerError := "Something went wrong"

  /** The `handleSubmit` check: name, task, pickup and drop-off must be
      non-empty, and the date-time too, but only for a custom schedule. */
  predicate SubmitAllowed(f: Form, sched: Schedule) {
    f.name != "" && f.task != "" && f.pickup != "" && f.dropoff != "" &&
    !(sched == Custom && f.datetime == "")
  }

  /** Notes are never required, and the date-time is only required for a
      custom schedule. */
  lemma OptionalFields(f: Form, sched: Schedule, notes: string, datetime: string)
    ensures SubmitAllowed(f.(notes := notes), sched) == SubmitAllowed(f, sched)
    ensures SubmitAllowed(f.(datetime := datetime), Asap) == SubmitAllowed(f, Asap)
    ensures SubmitAllowed(f, Custom) ==> SubmitAllowed(f, Asap)
  {
  }

  /** State of the task page. */
  datatype Page = Page(user: Option<RawUser>, loading: bool, showModal: bool, schedule: Schedule,
                       form: Form, nav: Nav, toast: Option<string>)

  const Start := Page(None, true, false, Asap, EmptyForm, Stay, None)

  /** `fetchUser`: a non-ok `/auth/me` sends the window to `/login`; a user
      whose role is not `customer` to `/not-authorized`; only a customer
      ends loading. A rejected fetch or a body without `user` throws in the
      effect, outside any catch, and changes nothing. */
  function FetchUser(p: Page, me: Fetched<MeBody>): (r: Page)
    ensures r.user != p.user ==>
      me.Resolved? && me.ok && r.user == me.body.user && r.user.Some? && r.user.value.role == CustomerRole
    ensures me.Resolved? && !me.ok ==> r == p.(nav := Assign(LoginPath))
    ensures me.Resolved? && me.ok && me.body.user.Some? && me.body.user.value.role != CustomerRole ==>
      r == p.(nav := Assign(NotAuthorizedPath))
    ensures r.loading != p.loading ==> r.user.Some? && r.user.value.role == CustomerRole
    ensures me.Resolved? && me.ok && me.body.user.Some? && me.body.user.value.role == CustomerRole ==>
      r == p.(user := me.body.user, loading := false)
    ensures me.Threw? || (me.Resolved? && me.ok && me.body.user.None?) ==> r == p
  {
    match me
    case Threw(_) => p
    case Resolved(ok, body) =>
      if !ok then p.(nav := Assign(LoginPath))
      else if body.user.None? then p
      else if body.user.value.role != CustomerRole then p.(nav := Assign(NotAuthorizedPath))
      else p.(user := body.user, loading := false)
  }

  /** `handleSubmit`: a valid form only opens the confirmation modal; no
      request is made before confirmation. */
  function HandleSubmit(p: Page): (r: Page)
    ensures r.form == p.form && r.schedule == p.schedule && r.nav == p.nav
    ensures SubmitAllowed(p.form, p.schedule) ==> r.showModal
    ensures !SubmitAllowed(p.form, p.schedule) ==> r.showModal == p.showModal && r.toast == Some(FillAllFields)
  {
    if SubmitAllowed(p.form, p.schedule) then p.(showModal := true)
    else p.(toast := Some(FillAllFields))
  }

  /** The `POST /tasks` body. */
  datatype Payload = Payload(name: string, task: string, pickup: string, dropoff: string,
                             datetime: string, notes: string, status: string)

  function BookingPayload(f: Form, sched: Schedule): (b: Payload)
    ensures b.status == Booking.Text(Booking.Pending)
    ensures sched == Asap ==> b.datetime == "ASAP"
    ensures sched == Custom ==> b.datetime == f.datetime
    ensures b.name == f.name && b.task == f.task && b.pickup == f.pickup &&
            b.dropoff == f.dropoff && b.notes == f.notes
  {
    Payload(f.name, f.task, f.pickup, f.dropoff, if sched == Asap then "ASAP" else f.datetime, f.notes, "pending")
  }

  /** The body of a failed `POST /tasks`. */
  datatype ErrorBody = ErrorBody(message: Option<string>)

  /** `confirmBooking`: closes the modal and posts the payload. On success
      the form resets to empty fields with an ASAP schedule and the page
      moves to book status; on failure the form is kept. */
  function ConfirmBooking(p: Page, res: Fetched<ErrorBody>): (r: (Page, Payload))
    ensures !r.0.showModal
    ensures r.1 == BookingPayload(p.form, p.schedule)
    ensures res.Resolved? && res.ok ==>
      r.0.form == EmptyForm && r.0.schedule == Asap && r.0.nav == Push(BookStatusPath)
    ensures !(res.Resolved? && res.ok) ==>
      r.0.form == p.form && r.0.schedule == p.schedule && r.0.nav == p.nav
    ensures res.Resolved? && !res.ok ==> r.0.toast == Some("❌ " + OrElse(res.body.message, DefaultServerError))
    ensures res.Resolved? && res.ok ==> r.0.toast == Some(BookedToast)
    ensures res.Threw? ==> r.0.toast == Some(SubmitFailedToast)
  {
    var closed := p.(showModal := false);
    var payload := BookingPayload(p.form, p.schedule);
    match res
    case Threw(_) => (closed.(toast := Some(SubmitFailedToast)), payload)
    case Resolved(ok, body) =>
      if !ok then (closed.(toast := Some("❌ " + OrElse(body.message, DefaultServerError))), payload)
      else (closed.(toast := Some(BookedToast), form := EmptyForm, schedule := Asap,
                    nav := Push(BookStatusPath)), payload)
  }

  /** The payload of a booking that passed the submit check carries every
      required field. */
  lemma SubmittedPayloadIsComplete(f: Form, sched: Schedule)
    requires SubmitAllowed(f, sched)
    ensures var b := BookingPayload(f, sched);
            b.name != "" && b.task != "" && b.pickup != "" && b.dropoff != "" && b.datetime != ""
  {
  }
}

=== FILE: token_store.dfy ===
/** The in-memory token holder of `src/lib/tokenStore.ts` and the loader
    that fills it from the two browser stores. */
module TokenStore {
  import opened Common

  const TokenKey := "triptask_token"
  const RefreshKey := "triptask_refresh_token"

  /** One browser key/value store. */
  type Store = map<string, string>

  /** `localStorage` (durable) and `sessionStorage` (tab-scoped). */
  datatype Browser = Browser(local: Store, session: Store)

  /** `store.getItem(key)`: the value, or null. */
  function Get(s: Store, key: string): Option<string> {
    if key in s then Some(s[key]) else None
  }

  /** The module-level `accessToken` and `refreshToken` variables. */
  datatype Tokens = Tokens(access: Option<string>, refresh: Option<string>)

  /** The state at module load, and after `clearTokens`. */
  const NoTokens := Tokens(None, None)

  /** `getAccessToken()`. */
  function GetAccessToken(m: Tokens): Option<string> { m.access }

  /** `getRefreshToken()`. */
  function GetRefreshToken(m: Tokens): Option<string> { m.refresh }

  /** `setTokens({access, refresh})`: the previous memory is overwritten;
      `refresh` is None for both null and undefined (`?? null`). No value is
      filtered, so "" or the text "undefined" is stored as it comes. */
  function SetTokens(access: string, refresh: Option<string>): (m: Tokens)
    ensures GetAccessToken(m) == Some(access)
    ensures GetRefreshToken(m) == refresh
  {
    Tokens(Some(access), refresh)
  }

  /** `clearTokens()`. */
  function ClearTokens(m: Tokens): (r: Tokens)
    ensures GetAccessToken(r).None? && GetRefreshToken(r).None?
  {
    NoTokens
  }

  /** Clearing twice is clearing once. This records a design fact that holds
      by construction (the result ignores the input); it is not a proof. */
  lemma ClearTokensIdempotent(m: Tokens)
    ensures ClearTokens(ClearTokens(m)) == ClearTokens(m)
  {
  }

  /** What `loadTokensFromStorage` produced, and whether it had to read
      `sessionStorage` on the way. */
  datatype Loaded = Loaded(tokens: Tokens, sessionRead: bool)

  /** `loadTokensFromStorage()`. `throws` stands for a storage access that
      raises (no `localStorage` in the environment): the catch clears. */
  function LoadTokensFromStorage(b: Browser, throws: bool): (r: Loaded)
    // localStorage wins when its token is non-empty; sessionStorage is not read
    ensures !throws && Truthy(Get(b.local, TokenKey)) ==>
      r.tokens == Tokens(Get(b.local, TokenKey), Get(b.local, RefreshKey)) && !r.sessionRead
    // otherwise both values come from sessionStorage
    ensures !throws && !Truthy(Get(b.local, TokenKey)) && Truthy(Get(b.session, TokenKey)) ==>
      r.tokens == Tokens(Get(b.session, TokenKey), Get(b.session, RefreshKey)) && r.sessionRead
    // no non-empty token anywhere, or an exception: memory ends empty
    ensures throws || (!Truthy(Get(b.local, TokenKey)) && !Truthy(Get(b.session, TokenKey))) ==>
      r.tokens == NoTokens
    // a loaded access token is always non-empty
    ensures r.tokens.access.Some? ==> Truthy(r.tokens.access)
  {
    if throws then Loaded(ClearTokens(NoTokens), false)
    else
      var localToken := Get(b.local, TokenKey);
      var localRefresh := Get(b.local, RefreshKey);
      var fromSession := !Truthy(localToken);
      var token := if fromSession then Get(b.session, TokenKey) else localToken;
      var refresh := if fromSession then Get(b.session, RefreshKey) else localRefresh;
      if Truthy(token) then Loaded(SetTokens(token.value, refresh), fromSession)
      else Loaded(ClearTokens(NoTokens), fromSession)
  }

  /** The store whose pair `loadTokensFromStorage` takes, chosen independently
      of how the loader reads it: the first store holding a non-empty token. */
  function ChosenStore(b: Browser): Option<Store> {
    if Truthy(Get(b.local, TokenKey)) then Some(b.local)
    else if Truthy(Get(b.session, TokenKey)) then Some(b.session)
    else None
  }

  /** Access and refresh token always come from the same store: a token from
      `localStorage` is never paired with a refresh token from `sessionStorage`. */
  lemma LoadTakesOneStore(b: Browser)
    ensures var r := LoadTokensFromStorage(b, false).tokens;
      match ChosenStore(b)
      case Some(s) => r.access == Get(s, TokenKey) && r.refresh == Get(s, RefreshKey)
      case None => r == NoTokens
  {
  }

  /** Loading only reads storage: the memory it produces does not depend on
      the memory it replaced, so loading twice is loading once. */
  function LoadInto(m: Tokens, b: Browser, throws: bool): Tokens {
    LoadTokensFromStorage(b, throws).tokens
  }

  /** Loading does not depend on what memory held before. This records a
      design fact that holds by construction (`LoadInto` ignores `m`); it is
      not a proof. */
  lemma LoadIsIdempotent(m: Tokens, m': Tokens, b: Browser, throws: bool)
    ensures LoadInto(LoadInto(m, b, throws), b, throws) == LoadInto(m, b, throws)
    ensures LoadInto(m, b, throws) == LoadInto(m', b, throws)
  {
  }
}

=== FILE: user_context.dfy ===
/** `UserProvider` of `src/context/UserContext.tsx`: session bootstrap on
    mount, the user-acceptance check and `logout`. */
module UserContext {
  import opened Common
  import opened TokenStore
  import Api

  /** The `User` kept in context: only these four fields survive. */
  datatype User = User(id: string, email: string, name: Option<string>, role: string)

  /** `u && u.id && u.email && u.role`, then the copy into `safeUser`. */
  function Accept(u: Option<RawUser>): (r: Option<User>)
    ensures r.Some? <==> u.Some? && u.value.id != "" && u.value.email != "" && u.value.role != ""
    ensures r.Some? ==> r.value.id == u.value.id && r.value.email == u.value.email &&
                        r.value.name == u.value.name && r.value.role == u.value.role
  {
    match u
    case Some(x) =>
      if x.id != "" && x.email != "" && x.role != "" then Some(User(x.id, x.email, x.name, x.role))
      else None
    case None => None
  }

  /** Any non-empty role is accepted; the check never compares it to the
      three roles the `User` type names. */
  lemma AcceptIgnoresRoleValue(id: string, email: string, name: Option<string>, role: string)
    requires id != "" && email != "" && role != ""
    ensures Accept(Some(RawUser(id, email, name, role))).Some?
    ensures Accept(Some(RawUser(id, email, name, role))).value.role == role
  {
  }

  /** Provider state plus the token store it drives. */
  datatype Session = Session(tokens: Tokens, user: Option<User>, loading: bool)

  const Initial := Session(NoTokens, None, true)

  /** `logout`: `logoutUser()` clears the in-memory tokens, then `setUser(null)`. */
  function Logout(s: Session): (r: Session)
    ensures r.tokens == NoTokens && r.user.None? && r.loading == s.loading
  {
    Session(ClearTokens(s.tokens), None, s.loading)
  }

  /** What one `init` run leaves behind, and whether it called `getCurrentUser`. */
  datatype InitRun = InitRun(session: Session, askedServer: bool)

  /** `init`: load tokens from storage; without an access token log out and
      stop; otherwise fetch the user and keep it only if it passes `Accept`.
      The `finally` clears `loading` on every path. */
  function Init(s: Session, b: Browser, storageThrows: bool, me: Fetched<MeBody>): (r: InitRun)
    ensures !r.session.loading
    ensures !Truthy(LoadTokensFromStorage(b, storageThrows).tokens.access) ==>
      !r.askedServer && r.session.user.None? && r.session.tokens == NoTokens
    ensures r.session.user.Some? <==> r.askedServer && Accept(Api.GetCurrentUser(me)).Some?
    ensures r.session.user.Some? ==>
      r.session.user == Accept(Api.GetCurrentUser(me)) &&
      r.session.tokens == LoadTokensFromStorage(b, storageThrows).tokens
    ensures r.session.user.None? ==> r.session.tokens == NoTokens
  {
    var loaded := Session(LoadTokensFromStorage(b, storageThrows).tokens, s.user, s.loading);
    var run :=
      if !Truthy(GetAccessToken(loaded.tokens)) then InitRun(Logout(loaded), false)
      else
        var u := Accept(Api.GetCurrentUser(me));
        if u.Some? then InitRun(loaded.(user := u), true)
        else InitRun(Logout(loaded), true);
    run.(session := run.session.(loading := false))
  }

  /** What the provider renders: a loading screen, or its children. */
  datatype View = LoadingScreen | Children

  function Render(s: Session): (v: View)
    ensures v == Children <==> !s.loading
  {
    if s.loading then LoadingScreen else Children
  }

  /** Children are never rendered before `init` finishes, and always after. */
  lemma ChildrenOnlyAfterInit(s: Session, b: Browser, storageThrows: bool, me: Fetched<MeBody>)
    ensures Render(Initial) == LoadingScreen
    ensures Render(Init(s, b, storageThrows, me).session) == Children
  {
  }
}
